=== FILE: README.md ===
# pymsg synchroniser core in Dafny

pymsg archives the message timelines of a subscription messaging service.
For each (group, member) pair it fetches the records newer than a stored
checkpoint, page by page. It merges them into the member's `messages.json`,
moves the checkpoint forward and queues the referenced media for download.
This project models the pure logic inside that I/O shell:

- **Utils** (`src/pymsg/utils.py`):
  - directory-name sanitising;
  - media extension resolution from a URL's path, falling back to a
    per-type default;
  - normalisation of a raw feed record.
- **Client** (`src/pymsg/client.py`):
  - the client's header set and token update;
  - the cookie-gated token refresh;
  - the subscription filter of `get_groups`;
  - the target chosen by `download_message_media` / `download_file`.
- **Pagination** (`src/pymsg/client.py`, `get_messages`): the paginated
  incremental fetch. It is a walk over an oracle feed, bounded by fuel.
- **Merge** (`src/pymsg/manager.py`, the bookkeeping block of
  `sync_member`):
  - the upsert by id over an insertion-ordered dictionary;
  - the stable sort by timestamp;
  - the per-type counts and the new checkpoint.
- **Manager** (`src/pymsg/manager.py`):
  - the checkpoint store;
  - the member filter;
  - `prepare_messages` and the queue it fills;
  - the completion counter of `process_media_queue`;
  - `sync_member` as a whole.
- **Base** and **Strings**: Python's semantics for the operations above:
  - truthiness and `or`;
  - `str.strip`, `replace`, ASCII `lower`, `split(c)[-1]`;
  - code-point order on `str`;
  - `str(int)` with its parse.

Every outside effect becomes a parameter:

- Network requests are oracles:
  - `fetch` for `GET /groups/{id}/timeline`;
  - `post` for `POST /update_token`;
  - `network` for a file download.
- The filesystem is a predicate `onDisk` on paths.
- The stored `messages.json` is a value passed in.
- Whether writing it succeeds is a boolean `writeOk`.
- The clock's `isoformat()` is a string `now`.

## Model

| member | source | states |
|---|---|---|
| Utils.SanitizeName | src/pymsg/utils.py:9-11 | The result holds no space and no `/` and is never longer than the input. It neither starts nor ends with whitespace. Each of its characters is the input character at the same offset (after the stripped prefix), with `' '` and `'/'` turned into `_`. Everything dropped at either end is whitespace other than a plain space. |
| Utils.SanitizeNameIdempotent | src/pymsg/utils.py:11 | Sanitising an already sanitised name changes nothing. |
| Utils.DefaultExtension | src/pymsg/utils.py:3-7 | The type default, looked up at `src/pymsg/utils.py:22`: `jpg` for image and picture, `m4a` for voice, `mp4` for movie and video, and `bin` for any other type or a missing one. |
| Utils.UrlPath | src/pymsg/utils.py:16-17 | The parsed path holds no `?` and no `#` and is never longer than the URL. |
| Utils.Netloc | src/pymsg/utils.py:16 | The parsed authority holds no `/`, `?` or `#`. |
| Utils.GetMediaExtension | src/pymsg/utils.py:13-22 | Raises (None) exactly when the URL is truthy and `urlparse` rejects its authority: one square bracket without the other, or a character whose NFKC form holds `/`, `?`, `#`, `@` or `:`. Otherwise the result is one of the 11 listed extensions or `bin`. A falsy URL, or a URL whose path has no `.`, gets the type default. For a path with a `.`, the result is the lower-cased text after the last `.` when that is listed, and the type default when it is not. |
| Utils.PathExtension | src/pymsg/utils.py:18-22 | For a path with a `.`: a listed suffix (lower-cased) is returned, and an unlisted one gives the type default. A path without a `.` gives the type default. |
| Utils.ExtensionViaPath | src/pymsg/utils.py:15-22 | A non-empty URL raises iff `urlparse` rejects its authority (the bracket and NFKC checks); otherwise it resolves to its path's extension. |
| Utils.ExtensionFromPath | src/pymsg/utils.py:16-21 | A URL that `urlparse` accepts, whose path ends in `.e` with `e` one of the listed extensions up to case, resolves to `e` lower-cased for every message type. |
| Utils.ExtensionDependsOnPathOnly | src/pymsg/utils.py:15-22 | Two URLs with the same authority and the same path resolve to the same extension, or both raise. |
| Utils.UrlPathOfAbsoluteUrl | src/pymsg/utils.py:16-17 | In `scheme://host/path` with no `?` or `#` in the path, the parsed path is exactly `/path`. |
| Utils.NetlocOfAbsoluteUrl | src/pymsg/utils.py:16 | In `scheme://host/path`, the parsed authority is exactly `host`. |
| Utils.UrlPathQuery | src/pymsg/utils.py:16-17 | Appending a query (`?...`) to a URL that has neither `?` nor `#` leaves its parsed path unchanged. |
| Utils.NetlocQuery | src/pymsg/utils.py:16 | Appending a query to such a URL leaves its parsed authority unchanged. |
| Utils.UrlPathEmpty | src/pymsg/utils.py:16-17 | The empty string has an empty path and no authority. |
| Utils.QueryDoesNotAffectExtension | src/pymsg/utils.py:15-21 | Appending a query string to such a URL leaves the outcome unchanged: the same extension, or a raise either way. |
| Utils.ExtensionOfAbsoluteUrl | tests/test_utils.py:6 | `scheme://host/stem.e`, with a host that `urlparse` accepts (both square brackets or neither, and no character whose NFKC form holds `/ ? # @ :`), resolves to `e` lower-cased when it is a listed extension, whatever the type. This is the `http://example.com/file.jpg` case. |
| Utils.ExtensionOfAbsoluteUrlWithQuery | tests/test_utils.py:7 | The same holds, for the same hosts, with any query appended. This is the `file.mp4?query=1` case. |
| Utils.UnbalancedHostRaises | src/pymsg/utils.py:16 | `scheme://host/path` with a host holding exactly one of `[` and `]` raises, whatever the path and the type. |
| Utils.NfkcHostRaises | src/pymsg/utils.py:16 | `scheme://host/path` with a host holding a character whose NFKC form holds `/ ? # @ :` (such as a fullwidth solidus) raises, whatever the path and the type. |
| Utils.FullwidthSolidusRaises | src/pymsg/utils.py:16 | `http://a／b/x.jpg` raises although its path ends in `.jpg`. |
| Utils.MapType | src/pymsg/utils.py:29-34 | Each direction of the type table: picture iff image/picture, video iff video/movie, voice iff voice, text for everything else including a missing type. |
| Utils.MediaUrl | src/pymsg/manager.py:157 | The media URL is present iff `file` or `thumbnail` is truthy. A truthy `file` wins, and the result is never empty. |
| Utils.NormalizeMessage | src/pymsg/utils.py:24-44 | Fails exactly when the id is missing. Otherwise: the same id; timestamp from `published_at`; content from `text`; `is_favorite` defaulting to false; no media file; the raw type kept aside; one of the four types, per the table. |
| Utils.NormalizeExamples | tests/test_utils.py:13-33 | The source's normalisation test cases. |
| Client.NewClient | src/pymsg/client.py:25-48 | The credentials are kept. A falsy app id or user agent is replaced by its default. The three fixed headers are set. `Authorization: Bearer <token>` is present iff the access token is truthy. |
| Client.UpdateToken | src/pymsg/client.py:50-58 | The new token is stored and sent as a bearer token. Every other header and credential is unchanged. |
| Client.Refresh | src/pymsg/client.py:84-108 | A refresh succeeds iff the cookie jar is non-empty and the response carries a truthy token. On success the client holds that token, as after `update_token`. |
| Client.GetGroups | src/pymsg/client.py:110-132 | A failed request gives no groups. Otherwise the result is an order-preserving subsequence of the response: each listed group once per occurrence, and no other group. |
| Client.ListedGroups | src/pymsg/client.py:126-131 | A group whose subscription is missing or null is never listed, and an active one always is. Without `include_inactive`, listed means active. |
| Client.MediaFileNameRoundTrip | src/pymsg/client.py:291 | `{id}.{ext}` reads back: the text after its last `.` is the extension, and the text before it parses as the id. |
| Client.DownloadFile | src/pymsg/client.py:230-261 | Success without a request for a falsy URL or an existing file. Otherwise success iff the request succeeds. |
| Client.DownloadMessageMedia | src/pymsg/client.py:263-300 | Nothing for a text message, a message without a URL, a URL whose authority `urlparse` rejects (bracket or NFKC check), a message without an id, or a failed download. Otherwise the path is `dir/<mapped type>/<id>.<ext>`, with the extension of the URL, and it is returned iff the download succeeds. |
| Client.DownloadSkipsExisting | src/pymsg/client.py:243-244 | A message whose URL parses and whose target is on disk gets that path back, whatever the network does. |
| Pagination.RequestFor | src/pymsg/client.py:169-174 | Each request asks for 200 records newest first. It carries a continuation iff the current one is truthy, and then it is exactly the current one. |
| Pagination.AbsorbSpec | src/pymsg/client.py:198-206 | Storing records by id keeps, for each id, the last record with that id, and every other entry as it was. |
| Pagination.ScanPage | src/pymsg/client.py:197-206 | The page loop only adds ids to what was gathered. A page read to its end without meeting the checkpoint has every record's id gathered. |
| Pagination.ScanPageSpec | src/pymsg/client.py:197-206 | One page takes its leading run of records above a truthy checkpoint. It stops at the first record at or below the checkpoint and drops that record and the rest of the page. A record without an id met before that raises. |
| Pagination.StepOf | src/pymsg/client.py:168-224 | A failed fetch is followed by a refresh and a retry of the same page only on page 0 (when the refresh succeeds); otherwise it ends the walk. An empty page ends the walk. The walk moves on iff the page is wholly fresh and brings a truthy continuation different from the one submitted. The gathered records always equal those taken from the pages received. |
| Pagination.StepReceived | src/pymsg/client.py:185-224 | A received page raises iff a record without an id occurs in its fresh run. Otherwise the page is appended to the pages received, the records of its fresh run are stored by id, the client is kept, and on moving on the page's continuation is the next one submitted. |
| Pagination.StepExtendsTrace | src/pymsg/client.py:185-224 | A step never drops a page already received. |
| Pagination.Walk | src/pymsg/client.py:168-225 | A walk that returns has kept, at its head, every page received before it started. |
| Pagination.RecordsByIdSpec | src/pymsg/client.py:228 | The stored records, listed by id: strictly ascending, exactly the ids taken, and each the last copy received. |
| Pagination.WalkReturnsGathered | src/pymsg/client.py:164-228 | A finished walk returns records with strictly ascending ids, exactly the ids taken from the pages received, and each the last copy received. All ids are above a truthy checkpoint. |
| Pagination.StepLinked | src/pymsg/client.py:168-224 | A step from a cursor whose pages are the feed's answers to the requests that follow each other stays so; a step that ends leaves pages that follow the feed to its end. |
| Pagination.WalkFollowsFeed | src/pymsg/client.py:164-225 | The pages a finished walk received are the feed's answers: the first to a request without a continuation, each later one to the continuation of the page before. Every page but the last led on. The walk ended on a page that did not lead on, or on a request that failed. |
| Pagination.WalkFromClient | src/pymsg/client.py:185-190 | A walk that returns ends with its starting client after its refreshes, one per success. Each refresh answered a first request that had failed for the client of that moment. |
| Pagination.GetMessages | src/pymsg/client.py:148-228 | `get_messages` as written returns what the walk promises: the records taken from the pages received, ascending by id, each the last copy. Those pages are the feed's chain of answers for the client the walk ends with, ended by a page that does not lead on or by a failed request. That client is the caller's, after one successful refresh per failed first request that was answered by one; without a refresh it is the caller's own. |
| Pagination.FirstPageRefreshLoop | src/pymsg/client.py:186-190 | As written, a first page that always fails, with refreshes that always succeed, never ends the loop, whatever the fuel. |
| Pagination.GetMessagesRefreshLoop | src/pymsg/client.py:186-190 | The same for `get_messages` itself: for such a feed it runs out of every amount of fuel. |
| Pagination.WalkRefreshesOnce | src/pymsg/client.py:186-190 | Under the corrected policy a finished walk made at most one refresh. |
| Pagination.GetMessagesRefreshOnce | src/pymsg/client.py:148-228 | The corrected fetch keeps every promise of `get_messages`, the feed chain and the client chain included, and makes at most one refresh. With one refresh, the caller's first request failed and the walk ended with the caller's client refreshed once. |
| Pagination.RefreshOnceEnds | src/pymsg/client.py:186-190 | Corrected: a feed that always fails ends within two iterations, with no records. |
| Pagination.AscendingInterval | src/pymsg/client.py:228 | Records strictly ascending by id whose ids are exactly `lo` to `hi - 1` are those ids in order, one per position. |
| Pagination.WalkStopsOn | src/pymsg/client.py:192-222 | A walk whose next answer does not lead on, and raises nothing, returns at once with that page received last. |
| Pagination.TwoPageWalk | src/pymsg/client.py:164-225 | A first answer that leads on and a second answer, to its continuation, that does not make `get_messages` return after exactly those two pages. |
| Pagination.ExampleTaken | src/pymsg/client.py:197-206 | From pages 50..41 and 40..31 with checkpoint 35, the records taken are 50 down to 36. |
| Pagination.ExampleWalk | src/pymsg/client.py:164-228 | Against a feed of ids 50..41 (continuation `c1`) then 40..31, from checkpoint 35, `get_messages` returns exactly the records 36 to 50 in ascending order. |
| Merge.Upsert | src/pymsg/manager.py:99-100 | Storing a record keeps every existing key in its place. It grows the list by one iff the key is new, and the new key goes last. Distinct keys stay distinct. |
| Merge.UpsertEntry | src/pymsg/manager.py:100 | After `d[id] = m`, key `id` holds `m` and every other key what it held before. |
| Merge.UpsertAllEntry | src/pymsg/manager.py:98-100 | After storing a batch, each key of the batch holds its last record in the batch, and every other key what it held before. |
| Merge.UpsertAll | src/pymsg/manager.py:98-100 | Storing a batch keeps every existing key in its place and grows the list only by new keys. A batch of known keys leaves the length unchanged, and distinct keys stay distinct. |
| Merge.MergeById | src/pymsg/manager.py:97-100 | The dictionary built from the stored and then the new messages has no repeated id. |
| Merge.SortByKey | src/pymsg/manager.py:104 | The sort returns a permutation of its input, ordered by `timestamp or ''` in code-point order. |
| Merge.SortIsStable | src/pymsg/manager.py:104 | Messages with equal timestamps keep their relative order. |
| Merge.SortSortedIsIdentity | src/pymsg/manager.py:104 | Sorting an already ordered list changes nothing. |
| Merge.MergeMessages | src/pymsg/manager.py:97-104 | The merged list is a permutation of the upserted dictionary's values. It has no repeated id and is in timestamp order. Each id holds the last new record with that id if there is one, else the last stored one. |
| Merge.MergedIds | src/pymsg/manager.py:97-102 | An id occurs in the merged list iff it occurs among the stored or the new messages. |
| Merge.MergeIdempotent | src/pymsg/manager.py:97-104 | Merging the same new batch into the result again gives the same list. |
| Merge.CountTypes | src/pymsg/manager.py:106-111 | Each count is the number of messages of that type. The four add up to at most the number of messages, and to exactly that number iff every type is one of the four. |
| Merge.NewCheckpoint | src/pymsg/manager.py:136 | For a non-empty merge: an id of the merged list at least every other id. Otherwise the previous checkpoint when truthy, else 0. |
| Manager.SyncKeyInjective | src/pymsg/manager.py:34 | Distinct (group, member) pairs have distinct keys `{g}_{m}`. |
| Manager.GetLastId | src/pymsg/manager.py:42-47 | A pair never synced has no checkpoint. A checkpoint returned is the one stored for the pair. A non-empty entry returns its `last_message_id`. |
| Manager.UpdateSyncState | src/pymsg/manager.py:33-39 | The pair's entry becomes (id, count, `now` + `Z`). The keys grow by at most that pair, and every other entry is unchanged. |
| Manager.GetAfterUpdate | src/pymsg/manager.py:33-47 | After an update the pair reads back the id written, and every other pair reads what it did before. |
| Manager.FilterMember | src/pymsg/manager.py:77 | The member's records, in order, each as often as in the input, and nothing else. Ascending ids stay ascending. |
| Manager.PreparedMessage | src/pymsg/manager.py:151-180 | A record is skipped iff it has no id or `urlparse` rejects the authority of its media URL (bracket or NFKC check). Otherwise the result is its normalised form. `media_file` is set iff the record has a media URL, and is then `<member dir>/<subdir>/<id>.<ext>`, where the subdir is `other` for a text record. |
| Manager.QueuedTask | src/pymsg/manager.py:157-174 | A download is queued iff the record is kept, has a media URL, and its target is not on disk. The queued entry carries that URL, that target and `published_at`. |
| Manager.PreparedAll | src/pymsg/manager.py:147-181 | One entry per kept record, in input order: the j-th entry is the prepared form of the j-th kept record. So the ids are those of the kept records in order, and every kept record is represented. |
| Manager.QueuedAll | src/pymsg/manager.py:147-181 | One task per record that needs a download, in input order: the j-th entry is the download computed for the j-th such record. |
| Manager.QueuedAllCovers | src/pymsg/manager.py:169-174 | Every record that needs a download has its task in the queue. |
| Manager.QueuedAllFrom | src/pymsg/manager.py:169-174 | Every queued download is the one computed for some record. |
| Manager.PrepareMessages | src/pymsg/manager.py:147-181 | A single loop over the records: each record adds its prepared form to the list and its download, if any, to the queue in the same step. This one pass gives exactly the list of `PreparedAll` and the queue of `QueuedAll`. |
| Manager.QueuedAllSnoc | src/pymsg/manager.py:168-174 | The queue for a list of records is the queue for all but the last, followed by the last record's download, if it needs one. |
| Manager.ProcessMediaQueue | src/pymsg/manager.py:183-208 | One progress report per successful download, numbered 1, 2, … against the queue's length. The number of reports equals the number of tasks whose download succeeds. |
| Manager.ExistingFilesSucceed | src/pymsg/manager.py:197-204 | A queue whose files are all on disk completes in full. |
| Manager.MemberRel | src/pymsg/manager.py:59-65 | The member directory has two components, neither containing `/`. The group id and the member id read back from them as the text before the first `_`. |
| Manager.SyncMember | src/pymsg/manager.py:49-145 | With `get_messages` as written: the queue only grows at its end, and no other pair's entry changes. Without a written export the count is 0 and the state is untouched. A written export has unique and ordered messages and the checkpoint computed from it. The call fails to return only when the fetch does. |
| Manager.SyncFetched | src/pymsg/manager.py:76-139 | The same promises, for the part after a fetch that returned. The export is written iff the member has fetched records, the group's subscription is not null (a null one makes the member block raise) and the write succeeds. The count is the number of kept records when written, else 0. |
| Manager.NullSubscriptionSkipsWrite | src/pymsg/manager.py:125 | A group whose subscription is null: the member's downloads stay queued, nothing is written, the state is untouched and the count is 0. |
| Manager.SyncMemberWritesNewRecords | src/pymsg/manager.py:97-139 | With fetched records for the member and a successful write, the export is written iff the group's subscription is not null. A written sync returns the number of the member's kept fetched records. It stores each of them, in prepared form, under its id. When one was kept, it moves the checkpoint past a truthy previous one. |
| Manager.KeptIdsAscending | src/pymsg/manager.py:147-181 | The ids kept from records strictly ascending by id are strictly ascending, and none exceeds the last record's id. |
| Manager.PreparedUnique | src/pymsg/manager.py:147-181 | The prepared batch of records ascending by id has no repeated id. |
| Manager.MergedHoldsPrepared | src/pymsg/manager.py:97-104 | After the merge, every kept record of the batch is found under its id, in prepared form. |

## Left out

- `src/pymsg/auth.py`: browser automation and token capture are an
  interactive foreign process. The credentials are an input here.
- The HTTP transport (`fetch_json`, the request inside
  `refresh_access_token`, the download inside `download_file`) is replaced
  by oracles. A response that is missing, non-200 or an empty object
  (all falsy in the source) is the oracle's None.
- `get_members`: a bare request returning `result or []`. It is not part of
  the synchronisation logic.
- The `max_id` request parameter (`src/pymsg/client.py:182-183`): its
  effect on the server is unknown, so requests never carry it.
- Pagination.GetMessages: the `progress_callback` calls are left out. They
  only report progress.
- `asyncio.sleep(0.5)` between pages is left out. So is the semaphore /
  `gather` concurrency of `process_media_queue`: the workers run one after
  another, and only the completion counter is modelled.
- JSON files, `mkdir` and `aiofiles`:
  - `load_sync_state` and `save_sync_state` are not modelled (the state is
    a value);
  - the stored `messages` list is a parameter;
  - a failed write of `messages.json` is the boolean `writeOk`.
- `datetime.utcnow()` is a string parameter. The `exported_at` field and
  the member metadata block of the export (`src/pymsg/manager.py:114-126`)
  are left out. The one exception is a null group subscription, which
  makes the block raise (`Manager.MetadataRaises`).
- Logging, `print` and `traceback` output, and the re-exports of
  `src/pymsg/__init__.py` are left out.
- Utils.UrlPath: a simplified `urlparse`. The scheme is the text before the
  first `:` if it is a valid scheme; then a `//host` authority; the path
  ends at the first `?` or `#`. Not modelled: `;params`, and the stripping
  of whitespace and control characters.
- Utils.GetMediaExtension: `urlparse` raising is modelled for an authority
  with one square bracket but not the other, and for one holding a
  character whose NFKC form holds `/ ? # @ :`. Those characters are a
  fixed table taken from Unicode 15.0, the version of Python 3.12; another
  Unicode version may add characters to it. The further checks of newer
  Python versions on a bracketed host (that it is a valid IPv6 or IPvFuture
  address) are not modelled: such a URL is taken as parsed.
- Manager.SyncMember: a written export does not imply a positive
  count. `prepare_messages` can skip every record of the member (no id,
  or a URL that `urlparse` rejects); the source then still writes the
  export and returns 0.
- Utils.GetMediaExtension: `lower()` is modelled on ASCII only. This
  still decides membership in the all-ASCII extension list exactly. The
  only non-ASCII character whose Unicode lower case is ASCII is the Kelvin
  sign U+212A (lower case `k`), and no listed extension contains `k`.
- Utils.NormalizeMessage: `is_favorite` is either a stored boolean or
  absent. A stored non-boolean value (JSON null, say) is not modelled.
- Merge.CountTypes: a stored message without a `type` counts as text in
  the source. Here every message has a type.
- Manager.SyncMember: a stored message without an `id` makes the source
  raise and return 0. Here every stored message has an id. Non-string
  timestamps are also not modelled.
- Manager.SyncMember: the refreshed client that the source keeps mutating
  is not returned; the outcome holds only the count, the state, the queue
  and the export.
- Pagination.GetMessages: the feed does not change during a walk. `fetch`
  is a function of the client and the request, so a retry from an
  unchanged client gets the same answer. In the source a retry is a new
  request that may succeed. For example, a refresh may return the token
  the client already holds.
- Manager.SyncMember: the group's `subscription` is missing, null or an
  object. Any other JSON value (a string, say) is not modelled.
- Pagination.Walk: fuel bounds the number of loop iterations. A walk that
  runs out of fuel is reported as `OutOfFuel`, standing for a call that
  has not returned. No claim is made about how much fuel a given feed
  needs.

## Findings

| source | as written | input that shows it | evidently intended | confidence | as-written member | corrected member |
|---|---|---|---|---|---|---|
| src/pymsg/client.py:186-190 | On a failed first page, `continue` runs after every successful refresh, and `page` stays 0 | Cookies present; every timeline request fails (for example the API rejects the new token or is down), while every `/update_token` succeeds. The loop refreshes and retries forever. | One refresh attempt on a failed first page, then give up (as the comment "Try refresh on first fail?" says) | not executed; high that the loop does not end for this input | Pagination.GetMessagesRefreshLoop | Pagination.RefreshOnceEnds |

The comment at `src/pymsg/client.py:187` ("Try refresh on first fail?")
asks for one refresh attempt. The branch under it keeps refreshing while
the first page fails, because `page` stays 0 after the `continue`.
`Pagination.GetMessages` and the synchronisation (`Manager.SyncMember`)
follow the code as written. `Pagination.GetMessagesRefreshOnce` is the
corrected fetch. It refreshes at most once and keeps every other promise
of `get_messages`.

=== FILE: base.dfy ===
/** Shared vocabulary: the optional value used wherever the source reads a
    dictionary key with `.get`, and Python's notion of truthiness for the few
    value shapes the synchroniser tests with `if x:`. */
module Base {

  /** A value that may be absent (`None` in the source). */
  datatype Option<+T> = None | Some(value: T) {

    /** The value, or `default` when absent (`d.get(k) or default` for
        values that are never falsy themselves). */
    function GetOr(default: T): T {
      match this
      case Some(v) => v
      case None => default
    }
  }

  /** `if s:` for an optional string: present and non-empty. */
  predicate TruthyStr(s: Option<string>) {
    s.Some? && s.value != ""
  }

  /** `if n:` for an optional integer: present and non-zero. */
  predicate TruthyInt(n: Option<int>) {
    n.Some? && n.value != 0
  }

  /** `a or b` on optional strings, keeping only a truthy outcome:
      the first truthy operand, or None when neither is truthy. */
  function OrStr(a: Option<string>, b: Option<string>): (r: Option<string>)
    ensures r.Some? <==> TruthyStr(a) || TruthyStr(b)
    ensures TruthyStr(a) ==> r == a
    ensures !TruthyStr(a) && TruthyStr(b) ==> r == b
    ensures r.Some? ==> r.value != ""
  {
    if TruthyStr(a) then a else if TruthyStr(b) then b else None
  }

  /** `a` is `b` with some elements dropped, the rest kept in order. */
  predicate Subsequence<T(==)>(a: seq<T>, b: seq<T>)
    decreases |b|
  {
    if |a| == 0 then true
    else if |b| == 0 then false
    else (a[0] == b[0] && Subsequence(a[1..], b[1..])) || Subsequence(a, b[1..])
  }

  /** The elements of `b` that satisfy `keep`, in their order. */
  function Filter<T>(b: seq<T>, keep: T -> bool): (a: seq<T>)
    ensures |a| <= |b|
    ensures forall x :: x in a ==> x in b && keep(x)
    ensures forall i :: 0 <= i < |b| && keep(b[i]) ==> b[i] in a
  {
    if |b| == 0 then [] else (if keep(b[0]) then [b[0]] else []) + Filter(b[1..], keep)
  }

  /** Filtering takes the last element on its own. */
  lemma {:induction false} FilterSnoc<T>(b: seq<T>, keep: T -> bool)
    requires |b| > 0
    ensures Filter(b, keep) == Filter(b[..|b| - 1], keep) + (if keep(b[|b| - 1]) then [b[|b| - 1]] else [])
    decreases |b|
  {
    if |b| > 1 {
      FilterSnoc(b[1..], keep);
      assert b[1..][..|b| - 2] == b[..|b| - 1][1..];
      assert b[..|b| - 1][0] == b[0];
    }
  }

  /** Whether `out` lists `f` of each element of `xs`, one per position. */
  ghost predicate MapsTo<T, U>(out: seq<U>, xs: seq<T>, f: T -> Option<U>) {
    |out| == |xs| && forall j :: 0 <= j < |out| ==> Some(out[j]) == f(xs[j])
  }

  /** Lists of results that match their inputs one by one concatenate
      with them: the list for `ys + zs` is the list for `ys` followed by
      the list for `zs`. */
  lemma MapsToAppend<T, U>(out: seq<U>, front: seq<U>, back: seq<U>, ys: seq<T>, zs: seq<T>, f: T -> Option<U>)
    requires MapsTo(out, ys + zs, f) && MapsTo(front, ys, f) && MapsTo(back, zs, f)
    ensures out == front + back
  {
    forall j | 0 <= j < |out|
      ensures out[j] == (front + back)[j]
    {
      if j < |ys| {
        assert (ys + zs)[j] == ys[j];
      } else {
        assert (ys + zs)[j] == zs[j - |ys|];
      }
    }
  }

  /** Filtering keeps exactly the wanted elements, each as often as it
      occurs, in their original order. */
  lemma {:induction false} FilterIsOrderedSelection<T>(b: seq<T>, keep: T -> bool)
    ensures Subsequence(Filter(b, keep), b)
    ensures forall x :: multiset(Filter(b, keep))[x] == if keep(x) then multiset(b)[x] else 0
  {
    if |b| > 0 {
      FilterIsOrderedSelection(b[1..], keep);
      var rest := Filter(b[1..], keep);
      assert b == [b[0]] + b[1..];
      if keep(b[0]) {
        assert Filter(b, keep)[1..] == rest;
      } else {
        assert Filter(b, keep) == rest;
        SubsequenceDropHead(rest, b);
      }
    }
  }

  lemma SubsequenceDropHead<T>(a: seq<T>, b: seq<T>)
    requires |b| > 0 && Subsequence(a, b[1..])
    ensures Subsequence(a, b)
  {
  }

  /** The least element of a non-empty set of integers. */
  function MinOf(s: set<int>): (m: int)
    requires s != {}
    ensures m in s && forall x :: x in s ==> m <= x
  {
    HasMinimum(s);
    var m :| m in s && forall x :: x in s ==> m <= x;
    m
  }

  lemma NonEmptyHasElement(s: set<int>)
    requires s != {}
    ensures exists y :: y in s
  {
    if forall y :: y !in s {
      assert false;
    }
  }

  lemma {:induction false} HasMinimum(s: set<int>)
    requires s != {}
    ensures exists m :: m in s && forall x :: x in s ==> m <= x
    decreases |s|
  {
    NonEmptyHasElement(s);
    var y :| y in s;
    var rest := s - {y};
    if rest != {} {
      HasMinimum(rest);
      var m :| m in rest && forall x :: x in rest ==> m <= x;
      var least := if y < m then y else m;
      forall x | x in s
        ensures least <= x
      {
        if x != y {
          assert x in rest;
        }
      }
    } else {
      forall x | x in s
        ensures y <= x
      {
        assert x !in rest;
      }
    }
  }

  /** The elements of a finite set of integers in strictly ascending order. */
  function SortedElements(s: set<int>): (r: seq<int>)
    ensures |r| == |s|
    ensures forall i :: 0 <= i < |r| ==> r[i] in s
    ensures forall x :: x in s ==> x in r
    ensures forall i, j :: 0 <= i < j < |r| ==> r[i] < r[j]
    decreases |s|
  {
    if s == {} then []
    else
      var m := MinOf(s);
      var rest := SortedElements(s - {m});
      SortedCons(m, s, rest);
      [m] + rest
  }

  lemma SortedCons(m: int, s: set<int>, rest: seq<int>)
    requires m in s && forall x :: x in s ==> m <= x
    requires |rest| == |s - {m}|
    requires forall i :: 0 <= i < |rest| ==> rest[i] in s - {m}
    requires forall x :: x in s - {m} ==> x in rest
    requires forall i, j :: 0 <= i < j < |rest| ==> rest[i] < rest[j]
    ensures var r := [m] + rest;
      && |r| == |s|
      && (forall i :: 0 <= i < |r| ==> r[i] in s)
      && (forall x :: x in s ==> x in r)
      && (forall i, j :: 0 <= i < j < |r| ==> r[i] < r[j])
  {
    var r := [m] + rest;
    forall i, j | 0 <= i < j < |r|
      ensures r[i] < r[j]
    {
      assert r[j] == rest[j - 1];
      if i > 0 {
        assert r[i] == rest[i - 1];
      }
    }
    forall x | x in s
      ensures x in r
    {
      if x != m {
        assert x in s - {m};
      }
    }
  }
}

=== FILE: client.dfy ===
/** The pure parts of `HinatazakaClient` in `src/pymsg/client.py`: the
    header set and its token update, the cookie-gated token refresh, the
    subscription filter over groups, and the choice of download target for
    a message's media. HTTP requests are oracles passed in as functions. */
module Client {
  import opened Base
  import opened Strings
  import opened Utils

  const DefaultAppId: string := "jp.co.sonymusic.communication.keyakizaka 2.5"
  const DefaultUserAgent: string := "Mozilla/5.0 (Windows NT 10.0; Win64; x64) AppleWebKit/537.36"
  const AuthHeader: string := "Authorization"

  /** The client's credentials and the headers sent with every request.
      An absent cookie jar is the empty map (both are falsy). */
  datatype Client = Client(
    accessToken: Option<string>,
    refreshToken: Option<string>,
    cookies: map<string, string>,
    appId: string,
    userAgent: string,
    headers: map<string, string>)

  /** The constructor: defaults for a falsy app id or user agent, and an
      `Authorization` header only when an access token is given. */
  function NewClient(accessToken: Option<string>, refreshToken: Option<string>, cookies: map<string, string>,
                     appId: Option<string>, userAgent: Option<string>): (c: Client)
    ensures c.accessToken == accessToken && c.refreshToken == refreshToken && c.cookies == cookies
    ensures c.appId == (if TruthyStr(appId) then appId.value else DefaultAppId)
    ensures c.userAgent == (if TruthyStr(userAgent) then userAgent.value else DefaultUserAgent)
    ensures "x-talk-app-id" in c.headers && c.headers["x-talk-app-id"] == c.appId
    ensures "user-agent" in c.headers && c.headers["user-agent"] == c.userAgent
    ensures "content-type" in c.headers && c.headers["content-type"] == "application/json"
    ensures AuthHeader in c.headers <==> TruthyStr(accessToken)
    ensures AuthHeader in c.headers ==> c.headers[AuthHeader] == "Bearer " + accessToken.value
    ensures |c.headers| == if TruthyStr(accessToken) then 4 else 3
  {
    var app := if TruthyStr(appId) then appId.value else DefaultAppId;
    var ua := if TruthyStr(userAgent) then userAgent.value else DefaultUserAgent;
    var base := map["x-talk-app-id" := app, "user-agent" := ua, "content-type" := "application/json"];
    var headers := if TruthyStr(accessToken) then base[AuthHeader := "Bearer " + accessToken.value] else base;
    Client(accessToken, refreshToken, cookies, app, ua, headers)
  }

  /** `update_token`: the new token is stored and sent as a bearer token;
      every other header and credential stays as it was. */
  function UpdateToken(c: Client, token: string): (c': Client)
    ensures c'.accessToken == Some(token)
    ensures c'.headers.Keys == c.headers.Keys + {AuthHeader}
    ensures c'.headers[AuthHeader] == "Bearer " + token
    ensures forall h :: h in c.headers && h != AuthHeader ==> c'.headers[h] == c.headers[h]
    ensures c'.refreshToken == c.refreshToken && c'.cookies == c.cookies
    ensures c'.appId == c.appId && c'.userAgent == c.userAgent
  {
    c.(accessToken := Some(token), headers := c.headers[AuthHeader := "Bearer " + token])
  }

  /** `refresh_access_token`. `post` stands for the `POST /update_token`
      request: the `access_token` of a 200 response, or None on any
      failure. Without cookies nothing is requested. A refresh succeeds
      exactly when there are cookies and the response carries a non-empty
      token, and then the client holds that token. */
  function Refresh(c: Client, post: Client -> Option<string>): (r: Option<Client>)
    ensures r.Some? <==> |c.cookies| > 0 && TruthyStr(post(c))
    ensures r.Some? ==> r.value == UpdateToken(c, post(c).value)
  {
    if |c.cookies| == 0 then None
    else match post(c)
      case Some(t) => if t != "" then Some(UpdateToken(c, t)) else None
      case None => None
  }

  // ---------------------------------------------------------------- groups

  datatype Subscription = Subscription(state: Option<string>)

  /** The `subscription` field of a group object: missing, JSON null, or
      an object. */
  datatype SubscriptionField = NoSubscription | NullSubscription | HasSubscription(sub: Subscription)

  datatype Group = Group(id: int, name: string, subscription: SubscriptionField)

  /** The states kept only when inactive groups are asked for. */
  const InactiveStates: set<string> := {"expired", "suspended", "canceled"}

  /** A group is listed when it has a subscription that is active, or
      inactive in one of the listed ways and inactive groups are wanted. */
  predicate Listed(g: Group, includeInactive: bool) {
    && g.subscription.HasSubscription?
    && var state := g.subscription.sub.state;
       (state == Some("active") || (includeInactive && state.Some? && state.value in InactiveStates))
  }

  /** `get_groups` given the response of `GET /groups` (None when the
      request failed). */
  function GetGroups(response: Option<seq<Group>>, includeInactive: bool): (r: seq<Group>)
    ensures response.None? ==> r == []
    ensures forall g :: g in r ==> Listed(g, includeInactive)
    ensures response.Some? ==> Subsequence(r, response.value)
    ensures response.Some? ==> forall g :: multiset(r)[g] == if Listed(g, includeInactive) then multiset(response.value)[g] else 0
  {
    match response
    case None => []
    case Some(groups) =>
      FilterIsOrderedSelection(groups, g => Listed(g, includeInactive));
      Filter(groups, g => Listed(g, includeInactive))
  }

  /** Groups without a subscription are never listed, and an active one
      always is. */
  lemma ListedGroups(g: Group, includeInactive: bool)
    ensures !g.subscription.HasSubscription? ==> !Listed(g, includeInactive)
    ensures g.subscription == HasSubscription(Subscription(Some("active"))) ==> Listed(g, includeInactive)
    ensures !includeInactive ==> (Listed(g, includeInactive) <==> g.subscription == HasSubscription(Subscription(Some("active"))))
  {
  }

  // -------------------------------------------------------------- download

  /** A filesystem path as its list of components. */
  type Path = seq<string>

  /** `{id}.{ext}`: the name a media file is stored under. */
  function MediaFileName(id: int, ext: string): string {
    IntToDecimal(id) + "." + ext
  }

  /** The file name reads back as the id and the extension: the extension
      is the text after its last `.`, and the text before it parses as the
      id. */
  lemma {:induction false} MediaFileNameRoundTrip(id: int, ext: string)
    requires '.' !in ext
    ensures AfterLast(MediaFileName(id, ext), '.') == ext
    ensures var name := MediaFileName(id, ext);
      var stem := name[..|name| - |ext| - 1];
      stem == IntToDecimal(id) && ParseInt(stem) == id
  {
    AfterLastOfDotted(IntToDecimal(id), ext);
    var name := MediaFileName(id, ext);
    assert name[..|name| - |ext| - 1] == IntToDecimal(id);
    ParseIntToDecimal(id);
  }

  /** Every extension the resolver can return is free of dots. */
  lemma ExtensionsHaveNoDot(ext: string)
    requires ext in KnownExtensions || ext == "bin"
    ensures '.' !in ext
  {
  }

  /** `download_file`: true without any request when the URL is empty or
      the file is already there; otherwise the outcome of the request
      (`network`). */
  function DownloadFile(url: Option<string>, path: Path, onDisk: Path -> bool, network: (string, Path) -> bool): (ok: bool)
    ensures !TruthyStr(url) || onDisk(path) ==> ok
    ensures ok ==> !TruthyStr(url) || onDisk(path) || network(url.value, path)
    ensures TruthyStr(url) && !onDisk(path) ==> ok == network(url.value, path)
  {
    !TruthyStr(url) || onDisk(path) || network(url.value, path)
  }

  /** Where `download_message_media` puts a message's media: under the
      type's directory, named after the id and the resolved extension. */
  function MediaTarget(dir: Path, t: MsgType, id: int, ext: string): Path {
    dir + [t.Name(), MediaFileName(id, ext)]
  }

  /** `download_message_media`: nothing for a text message, for a message
      without a file or thumbnail URL, for a message without an id, when
      `urlparse` raises on the URL (the exception is swallowed), or when
      the download fails; otherwise the path the media now has. */
  function DownloadMessageMedia(m: RawMessage, dir: Path, onDisk: Path -> bool, network: (string, Path) -> bool): (r: Option<Path>)
    ensures MapType(m.rawType) == Text || MediaUrl(m).None? || m.id.None? ==> r.None?
    ensures GetMediaExtension(MediaUrl(m), m.rawType).None? ==> r.None?
    ensures r.Some? ==>
      && MapType(m.rawType) in {Picture, Video, Voice}
      && MediaUrl(m).Some? && m.id.Some? && GetMediaExtension(MediaUrl(m), m.rawType).Some?
      && |r.value| == |dir| + 2 && r.value[..|dir|] == dir
      && r.value[|dir|] in {"picture", "video", "voice"}
      && r.value[|dir|] == MapType(m.rawType).Name()
      && r.value[|dir| + 1] == MediaFileName(m.id.value, GetMediaExtension(MediaUrl(m), m.rawType).value)
    ensures r.Some? <==>
      && MapType(m.rawType) != Text && MediaUrl(m).Some? && m.id.Some?
      && GetMediaExtension(MediaUrl(m), m.rawType).Some?
      && DownloadFile(MediaUrl(m), MediaTarget(dir, MapType(m.rawType), m.id.value, GetMediaExtension(MediaUrl(m), m.rawType).value), onDisk, network)
  {
    var t := MapType(m.rawType);
    var url := MediaUrl(m);
    if url.None? || t == Text then None
    else
      match GetMediaExtension(url, m.rawType)
      case None => None
      case Some(ext) =>
        if m.id.None? then None
        else
          var path := MediaTarget(dir, t, m.id.value, ext);
          if DownloadFile(url, path, onDisk, network) then Some(path) else None
  }

  /** A message whose media file is already on disk needs no request: its
      target is returned whatever the network would say. */
  lemma DownloadSkipsExisting(m: RawMessage, dir: Path, onDisk: Path -> bool, network: (string, Path) -> bool)
    requires MapType(m.rawType) != Text && MediaUrl(m).Some? && m.id.Some?
    requires GetMediaExtension(MediaUrl(m), m.rawType).Some?
    requires onDisk(MediaTarget(dir, MapType(m.rawType), m.id.value, GetMediaExtension(MediaUrl(m), m.rawType).value))
    ensures DownloadMessageMedia(m, dir, onDisk, network) ==
      Some(MediaTarget(dir, MapType(m.rawType), m.id.value, GetMediaExtension(MediaUrl(m), m.rawType).value))
  {
  }
}

=== FILE: manager.dfy ===
/** `SyncManager` of `src/pymsg/manager.py`: the checkpoint store keyed by
    group and member, the preparation of fetched records for export (with
    the download queue it fills), the completion counter of the media
    queue, and `sync_member`, which ties them to the fetch and the merge.
    The filesystem is a predicate telling which paths exist; the JSON files
    are values passed in and out. */
module Manager {
  import opened Base
  import opened Strings
  import opened Utils
  import opened Client
  import Pagination
  import opened Merge

  // ------------------------------------------------------------ sync state

  /** One entry of `sync_state.json`. Entries written by the manager carry
      all three fields; an entry read back from the file may lack any. */
  datatype SyncEntry = SyncEntry(lastMessageId: Option<int>, totalMessages: Option<int>, lastSync: Option<string>)

  type SyncState = map<string, SyncEntry>

  /** `if state:` on the stored dictionary: it has at least one key. */
  predicate NonEmptyEntry(e: SyncEntry) {
    e.lastMessageId.Some? || e.totalMessages.Some? || e.lastSync.Some?
  }

  /** The key `f"{group_id}_{member_id}"`. */
  function SyncKey(g: int, m: int): string {
    IntToDecimal(g) + "_" + IntToDecimal(m)
  }

  lemma NoSeparator(n: int)
    ensures '_' !in IntToDecimal(n)
  {
  }

  /** The text before the first `_` of `a_b` is `a` when `a` has none. */
  lemma {:induction false} BeforeSeparator(a: string, b: string)
    requires '_' !in a
    ensures Before(a + "_" + b, {'_'}) == a
  {
    if |a| > 0 {
      assert (a + "_" + b)[1..] == a[1..] + "_" + b;
      BeforeSeparator(a[1..], b);
      assert a == [a[0]] + a[1..];
    }
  }

  lemma SplitAtSeparator(a: string, b: string, a': string, b': string)
    requires '_' !in a && '_' !in a'
    requires a + "_" + b == a' + "_" + b'
    ensures a == a' && b == b'
  {
    var s := a + "_" + b;
    BeforeSeparator(a, b);
    BeforeSeparator(a', b');
    assert b == s[|a| + 1..];
    assert b' == (a' + "_" + b')[|a'| + 1..];
  }

  /** Distinct (group, member) pairs never share a key. */
  lemma SyncKeyInjective(g: int, m: int, g': int, m': int)
    ensures SyncKey(g, m) == SyncKey(g', m') ==> g == g' && m == m'
  {
    if SyncKey(g, m) == SyncKey(g', m') {
      NoSeparator(g);
      NoSeparator(g');
      SplitAtSeparator(IntToDecimal(g), IntToDecimal(m), IntToDecimal(g'), IntToDecimal(m'));
      IntToDecimalInjective(g, g');
      IntToDecimalInjective(m, m');
    }
  }

  /** `get_last_id`: the stored checkpoint of the pair, None for a pair
      never synced or an entry without one. */
  function GetLastId(st: SyncState, g: int, m: int): (r: Option<int>)
    ensures SyncKey(g, m) !in st ==> r.None?
    ensures r.Some? ==> SyncKey(g, m) in st && r == st[SyncKey(g, m)].lastMessageId
    ensures SyncKey(g, m) in st && NonEmptyEntry(st[SyncKey(g, m)]) ==> r == st[SyncKey(g, m)].lastMessageId
  {
    var key := SyncKey(g, m);
    if key in st && NonEmptyEntry(st[key]) then st[key].lastMessageId else None
  }

  /** `update_sync_state`; `now` is the `isoformat()` of the clock. */
  function UpdateSyncState(st: SyncState, g: int, m: int, lastId: int, count: nat, now: string): (st': SyncState)
    ensures st'.Keys == st.Keys + {SyncKey(g, m)}
    ensures st'[SyncKey(g, m)] == SyncEntry(Some(lastId), Some(count), Some(now + "Z"))
    ensures forall k :: k in st && k != SyncKey(g, m) ==> st'[k] == st[k]
  {
    st[SyncKey(g, m) := SyncEntry(Some(lastId), Some(count), Some(now + "Z"))]
  }

  /** After an update the pair reads back the id just written, and every
      other pair reads back what it did before. */
  lemma GetAfterUpdate(st: SyncState, g: int, m: int, lastId: int, count: nat, now: string, g': int, m': int)
    ensures GetLastId(UpdateSyncState(st, g, m, lastId, count, now), g, m) == Some(lastId)
    ensures (g', m') != (g, m) ==>
      GetLastId(UpdateSyncState(st, g, m, lastId, count, now), g', m') == GetLastId(st, g', m')
  {
    SyncKeyInjective(g, m, g', m');
  }

  // -------------------------------------------------------- member filter

  /** `[x for x in messages if x.get('member_id') == mid]`. */
  function FilterMember(ms: seq<RawMessage>, mid: int): (r: seq<RawMessage>)
    ensures Subsequence(r, ms)
    ensures forall x :: multiset(r)[x] == if x.memberId == Some(mid) then multiset(ms)[x] else 0
    ensures forall x :: x in r ==> x in ms
    ensures Pagination.StrictlyAscendingIds(ms) ==> Pagination.StrictlyAscendingIds(r)
  {
    FilterIsOrderedSelection(ms, (x: RawMessage) => x.memberId == Some(mid));
    FilterKeepsAscendingIf(ms, (x: RawMessage) => x.memberId == Some(mid));
    Filter(ms, (x: RawMessage) => x.memberId == Some(mid))
  }

  /** Filtering records whose ids ascend keeps them ascending. */
  lemma {:induction false} FilterKeepsAscending(ms: seq<RawMessage>, keep: RawMessage -> bool)
    requires Pagination.StrictlyAscendingIds(ms)
    ensures Pagination.StrictlyAscendingIds(Filter(ms, keep))
  {
    if |ms| > 0 {
      var rest := Filter(ms[1..], keep);
      AscendingTail(ms);
      FilterKeepsAscending(ms[1..], keep);
      if keep(ms[0]) {
        forall x | x in rest ensures x.id.Some? && x.id.value > ms[0].id.value {
          AscendingHeadBelow(ms, x);
        }
        AscendingCons(ms[0], rest);
        assert Filter(ms, keep) == [ms[0]] + rest;
      } else {
        assert Filter(ms, keep) == rest;
      }
    }
  }

  lemma AscendingTail(ms: seq<RawMessage>)
    requires |ms| > 0 && Pagination.StrictlyAscendingIds(ms)
    ensures Pagination.StrictlyAscendingIds(ms[1..])
  {
    assert forall i :: 0 <= i < |ms| - 1 ==> ms[1..][i] == ms[i + 1];
  }

  lemma AscendingHeadBelow(ms: seq<RawMessage>, x: RawMessage)
    requires |ms| > 0 && Pagination.StrictlyAscendingIds(ms) && x in ms[1..]
    ensures x.id.Some? && x.id.value > ms[0].id.value
  {
    var i :| 0 <= i < |ms[1..]| && ms[1..][i] == x;
    assert x == ms[i + 1];
  }

  lemma AscendingCons(h: RawMessage, rest: seq<RawMessage>)
    requires h.id.Some? && Pagination.StrictlyAscendingIds(rest)
    requires forall x :: x in rest ==> x.id.Some? && x.id.value > h.id.value
    ensures Pagination.StrictlyAscendingIds([h] + rest)
  {
    var r := [h] + rest;
    forall j | 1 <= j < |r| ensures r[j] == rest[j - 1] && r[j] in rest {
    }
  }

  lemma FilterKeepsAscendingIf(ms: seq<RawMessage>, keep: RawMessage -> bool)
    ensures Pagination.StrictlyAscendingIds(ms) ==> Pagination.StrictlyAscendingIds(Filter(ms, keep))
  {
    if Pagination.StrictlyAscendingIds(ms) {
      FilterKeepsAscending(ms, keep);
    }
  }

  // -------------------------------------------------------------- prepare

  /** A download queued for later: `{'url', 'path', 'timestamp'}`. */
  datatype Task = Task(url: string, path: Path, timestamp: Option<string>)

  /** The type directory a media file goes to; text messages that carry a
      file go to `other`. */
  function Subdir(t: MsgType): (d: string)
    ensures d in {"picture", "video", "voice", "other"}
    ensures d == "other" <==> t !in {Picture, Video, Voice}
  {
    match t
    case Picture => "picture"
    case Video => "video"
    case Voice => "voice"
    case _ => "other"
  }

  /** The media path of a normalised record, relative to the output
      directory, for the resolved extension `ext`. */
  function MediaRel(memberRel: Path, n: Normalized, ext: string): Path {
    memberRel + [Subdir(n.msg.msgType), MediaFileName(n.msg.id, ext)]
  }

  /** Whether `prepare_messages` keeps a record: it has an id, and
      `urlparse` accepts its file or thumbnail URL when it has one. Either
      failure raises inside the loop and the record is skipped. */
  predicate Kept(m: RawMessage) {
    m.id.Some? && (MediaUrl(m).None? || GetMediaExtension(MediaUrl(m), m.rawType).Some?)
  }

  /** The exported form of one record: the normalised message, with
      `media_file` set to its relative path (joined by `/`) when it has a
      file or thumbnail URL; None for a record that is skipped. */
  function PreparedMessage(m: RawMessage, memberRel: Path): (r: Option<Message>)
    ensures r.None? <==> !Kept(m)
    ensures r.Some? ==>
      && r.value.(mediaFile := None) == NormalizeMessage(m).value.msg
      && (r.value.mediaFile.Some? <==> MediaUrl(m).Some?)
    ensures r.Some? && MediaUrl(m).Some? ==>
      var ext := GetMediaExtension(MediaUrl(m), m.rawType).value;
      var rel := MediaRel(memberRel, NormalizeMessage(m).value, ext);
      && r.value.mediaFile == Some(Join(rel, "/"))
      && |rel| == |memberRel| + 2 && rel[..|memberRel|] == memberRel
      && rel[|memberRel|] == (if MapType(m.rawType) == Text then "other" else MapType(m.rawType).Name())
      && rel[|memberRel| + 1] == MediaFileName(m.id.value, ext)
  {
    match NormalizeMessage(m)
    case None => None
    case Some(n) =>
      match MediaUrl(m)
      case None => Some(n.msg)
      case Some(url) =>
        match GetMediaExtension(Some(url), n.rawType)
        case None => None
        case Some(ext) => Some(n.msg.(mediaFile := Some(Join(MediaRel(memberRel, n, ext), "/"))))
  }

  /** The download queued for one record: one exactly when the record is
      kept, has a file or thumbnail URL, and its target does not exist yet. */
  function QueuedTask(m: RawMessage, outputDir: Path, memberRel: Path, onDisk: Path -> bool): (r: Option<Task>)
    ensures r.Some? <==>
      Kept(m) && MediaUrl(m).Some? &&
      !onDisk(outputDir + MediaRel(memberRel, NormalizeMessage(m).value, GetMediaExtension(MediaUrl(m), m.rawType).value))
    ensures r.Some? ==>
      && r.value.url == MediaUrl(m).value && r.value.url != ""
      && r.value.path == outputDir + MediaRel(memberRel, NormalizeMessage(m).value, GetMediaExtension(MediaUrl(m), m.rawType).value)
      && r.value.timestamp == m.publishedAt
      && !onDisk(r.value.path)
  {
    match NormalizeMessage(m)
    case None => None
    case Some(n) =>
      match MediaUrl(m)
      case None => None
      case Some(url) =>
        match GetMediaExtension(Some(url), n.rawType)
        case None => None
        case Some(ext) =>
          var path := outputDir + MediaRel(memberRel, n, ext);
          if onDisk(path) then None else Some(Task(url, path, m.publishedAt))
  }

  /** The ids of the records that are kept, in order. */
  function KeptIds(ms: seq<RawMessage>): seq<int> {
    if |ms| == 0 then []
    else KeptIds(ms[..|ms| - 1]) + (if Kept(ms[|ms| - 1]) then [ms[|ms| - 1].id.value] else [])
  }

  /** The prepared records, in input order, skipped records left out: each
      comes from an input record, and every kept input record is
      represented. */
  function PreparedAll(ms: seq<RawMessage>, memberRel: Path): (r: seq<Message>)
    ensures var kept := Filter(ms, Kept);
      && |r| == |kept|
      && forall j :: 0 <= j < |r| ==> Some(r[j]) == PreparedMessage(kept[j], memberRel)
    ensures Ids(r) == KeptIds(ms)
    ensures forall i :: 0 <= i < |ms| && Kept(ms[i]) ==> PreparedMessage(ms[i], memberRel).value in r
    ensures forall p :: p in r ==> exists i :: 0 <= i < |ms| && PreparedMessage(ms[i], memberRel) == Some(p)
  {
    if |ms| == 0 then []
    else
      var init := ms[..|ms| - 1];
      var r := PreparedAll(init, memberRel);
      PreparedStepIds(ms, memberRel, r);
      PreparedStepCovers(ms, init, memberRel, r);
      PreparedStepFrom(ms, init, memberRel, r);
      PreparedStepOrder(ms, memberRel, r);
      r + PreparedOne(ms[|ms| - 1], memberRel)
  }

  /** The prepared form of one record, as a list of zero or one. */
  function PreparedOne(m: RawMessage, memberRel: Path): (r: seq<Message>)
    ensures |r| <= 1 && (|r| == 1 <==> Kept(m))
    ensures |r| == 1 ==> Some(r[0]) == PreparedMessage(m, memberRel) && r[0].id == m.id.value
  {
    match PreparedMessage(m, memberRel)
    case Some(p) => [p]
    case None => []
  }

  lemma PreparedStepIds(ms: seq<RawMessage>, memberRel: Path, r: seq<Message>)
    requires |ms| > 0 && Ids(r) == KeptIds(ms[..|ms| - 1])
    ensures Ids(r + PreparedOne(ms[|ms| - 1], memberRel)) == KeptIds(ms)
  {
    var m := ms[|ms| - 1];
    IdsAppendOne(r, PreparedOne(m, memberRel), Kept(m), if m.id.Some? then m.id.value else 0);
  }

  lemma IdsAppendOne(r: seq<Message>, one: seq<Message>, keep: bool, id: int)
    requires |one| <= 1 && (|one| == 1 <==> keep) && (|one| == 1 ==> one[0].id == id)
    ensures Ids(r + one) == Ids(r) + (if keep then [id] else [])
  {
    assert keep ==> (r + one)[|r|] == one[0];
  }

  lemma PreparedStepOrder(ms: seq<RawMessage>, memberRel: Path, r: seq<Message>)
    requires |ms| > 0
    requires var kept := Filter(ms[..|ms| - 1], Kept);
      |r| == |kept| && forall j :: 0 <= j < |r| ==> Some(r[j]) == PreparedMessage(kept[j], memberRel)
    ensures var kept := Filter(ms, Kept);
      var out := r + PreparedOne(ms[|ms| - 1], memberRel);
      |out| == |kept| && forall j :: 0 <= j < |out| ==> Some(out[j]) == PreparedMessage(kept[j], memberRel)
  {
    FilterSnoc(ms, Kept);
  }

  lemma PreparedStepCovers(ms: seq<RawMessage>, init: seq<RawMessage>, memberRel: Path, r: seq<Message>)
    requires |ms| > 0 && init == ms[..|ms| - 1]
    requires forall i :: 0 <= i < |init| && Kept(init[i]) ==> PreparedMessage(init[i], memberRel).value in r
    ensures forall i :: 0 <= i < |ms| && Kept(ms[i]) ==>
      PreparedMessage(ms[i], memberRel).value in r + PreparedOne(ms[|ms| - 1], memberRel)
  {
    var one := PreparedOne(ms[|ms| - 1], memberRel);
    forall i | 0 <= i < |ms| && Kept(ms[i])
      ensures PreparedMessage(ms[i], memberRel).value in r + one
    {
      if i < |ms| - 1 {
        assert init[i] == ms[i];
      } else {
        assert one[0] == PreparedMessage(ms[i], memberRel).value;
      }
    }
  }

  lemma PreparedStepFrom(ms: seq<RawMessage>, init: seq<RawMessage>, memberRel: Path, r: seq<Message>)
    requires |ms| > 0 && init == ms[..|ms| - 1]
    requires forall p :: p in r ==> exists i :: 0 <= i < |init| && PreparedMessage(init[i], memberRel) == Some(p)
    ensures forall p :: p in r + PreparedOne(ms[|ms| - 1], memberRel) ==>
      exists i :: 0 <= i < |ms| && PreparedMessage(ms[i], memberRel) == Some(p)
  {
    var one := PreparedOne(ms[|ms| - 1], memberRel);
    forall p | p in r + one
      ensures exists i :: 0 <= i < |ms| && PreparedMessage(ms[i], memberRel) == Some(p)
    {
      if p in r {
        var i :| 0 <= i < |init| && PreparedMessage(init[i], memberRel) == Some(p);
        assert init[i] == ms[i];
      } else {
        assert p == one[0];
        assert PreparedMessage(ms[|ms| - 1], memberRel) == Some(p);
      }
    }
  }

  /** Whether a record adds a download to the queue. */
  function NeedsDownload(outputDir: Path, memberRel: Path, onDisk: Path -> bool): RawMessage -> bool {
    m => QueuedTask(m, outputDir, memberRel, onDisk).Some?
  }

  /** The downloads added to the queue: one per record that needs one, in
      input order, each that record's task. */
  function QueuedAll(ms: seq<RawMessage>, outputDir: Path, memberRel: Path, onDisk: Path -> bool): (r: seq<Task>)
    ensures var needing := Filter(ms, NeedsDownload(outputDir, memberRel, onDisk));
      && |r| == |needing|
      && forall j :: 0 <= j < |r| ==> Some(r[j]) == QueuedTask(needing[j], outputDir, memberRel, onDisk)
  {
    if |ms| == 0 then []
    else
      var rest := QueuedAll(ms[1..], outputDir, memberRel, onDisk);
      match QueuedTask(ms[0], outputDir, memberRel, onDisk)
      case Some(t) => [t] + rest
      case None => rest
  }

  /** Every record that needs a download has its task queued. */
  lemma QueuedAllCovers(ms: seq<RawMessage>, outputDir: Path, memberRel: Path, onDisk: Path -> bool, i: nat)
    requires i < |ms| && QueuedTask(ms[i], outputDir, memberRel, onDisk).Some?
    ensures QueuedTask(ms[i], outputDir, memberRel, onDisk).value in QueuedAll(ms, outputDir, memberRel, onDisk)
  {
    var needing := Filter(ms, NeedsDownload(outputDir, memberRel, onDisk));
    var r := QueuedAll(ms, outputDir, memberRel, onDisk);
    assert ms[i] in needing;
    var j :| 0 <= j < |needing| && needing[j] == ms[i];
    assert Some(r[j]) == QueuedTask(ms[i], outputDir, memberRel, onDisk);
  }

  /** Every queued download is the one computed for some record. */
  lemma QueuedAllFrom(ms: seq<RawMessage>, outputDir: Path, memberRel: Path, onDisk: Path -> bool, t: Task)
    requires t in QueuedAll(ms, outputDir, memberRel, onDisk)
    ensures exists i :: 0 <= i < |ms| && QueuedTask(ms[i], outputDir, memberRel, onDisk) == Some(t)
  {
    var needing := Filter(ms, NeedsDownload(outputDir, memberRel, onDisk));
    var r := QueuedAll(ms, outputDir, memberRel, onDisk);
    var j :| 0 <= j < |r| && r[j] == t;
    var m := needing[j];
    assert QueuedTask(m, outputDir, memberRel, onDisk) == Some(t);
    assert m in ms;
    var i :| 0 <= i < |ms| && ms[i] == m;
  }

  /** The download queued for one record, as a list of zero or one. */
  function QueuedOne(m: RawMessage, outputDir: Path, memberRel: Path, onDisk: Path -> bool): (r: seq<Task>)
    ensures |r| <= 1 && (|r| == 1 <==> NeedsDownload(outputDir, memberRel, onDisk)(m))
    ensures |r| == 1 ==> Some(r[0]) == QueuedTask(m, outputDir, memberRel, onDisk)
  {
    match QueuedTask(m, outputDir, memberRel, onDisk)
    case Some(t) => [t]
    case None => []
  }

  /** The queue of a list of records is the queue of all but the last,
      followed by the last one's download, if any. */
  lemma QueuedAllSnoc(ms: seq<RawMessage>, outputDir: Path, memberRel: Path, onDisk: Path -> bool)
    requires |ms| > 0
    ensures QueuedAll(ms, outputDir, memberRel, onDisk) ==
      QueuedAll(ms[..|ms| - 1], outputDir, memberRel, onDisk) + QueuedOne(ms[|ms| - 1], outputDir, memberRel, onDisk)
  {
    var needs := NeedsDownload(outputDir, memberRel, onDisk);
    var task := m => QueuedTask(m, outputDir, memberRel, onDisk);
    var last := ms[|ms| - 1];
    FilterSnoc(ms, needs);
    var one := QueuedOne(last, outputDir, memberRel, onDisk);
    assert MapsTo(one, if needs(last) then [last] else [], task);
    MapsToAppend(QueuedAll(ms, outputDir, memberRel, onDisk), QueuedAll(ms[..|ms| - 1], outputDir, memberRel, onDisk), one,
                 Filter(ms[..|ms| - 1], needs), if needs(last) then [last] else [], task);
  }

  datatype PrepareResult = PrepareResult(processed: seq<Message>, tasks: seq<Task>)

  /** `prepare_messages`: one pass over the records that, for each in
      turn, appends its prepared form to the result and its download to
      the queue. The pass yields exactly the prepared records of
      `PreparedAll` and the downloads of `QueuedAll`. */
  function PrepareMessages(ms: seq<RawMessage>, outputDir: Path, memberRel: Path, onDisk: Path -> bool): (r: PrepareResult)
    ensures r.processed == PreparedAll(ms, memberRel)
    ensures r.tasks == QueuedAll(ms, outputDir, memberRel, onDisk)
  {
    if |ms| == 0 then PrepareResult([], [])
    else
      var m := ms[|ms| - 1];
      var prior := PrepareMessages(ms[..|ms| - 1], outputDir, memberRel, onDisk);
      QueuedAllSnoc(ms, outputDir, memberRel, onDisk);
      PrepareResult(prior.processed + PreparedOne(m, memberRel), prior.tasks + QueuedOne(m, outputDir, memberRel, onDisk))
  }

  // ---------------------------------------------------------- media queue

  /** Whether `download_file` reports success for a queued task. */
  predicate Downloaded(t: Task, onDisk: Path -> bool, network: (string, Path) -> bool) {
    DownloadFile(Some(t.url), t.path, onDisk, network)
  }

  /** The number of queued tasks whose download succeeds. */
  function Succeeded(q: seq<Task>, onDisk: Path -> bool, network: (string, Path) -> bool): (n: nat)
    ensures n <= |q|
  {
    if |q| == 0 then 0
    else Succeeded(q[..|q| - 1], onDisk, network) + (if Downloaded(q[|q| - 1], onDisk, network) then 1 else 0)
  }

  /** `process_media_queue` with the workers run one after another: the
      progress reports `(completed, total)` it makes, one per successful
      download, counting 1, 2, ... against the queue's length. */
  method ProcessMediaQueue(q: seq<Task>, onDisk: Path -> bool, network: (string, Path) -> bool)
    returns (reports: seq<(nat, nat)>)
    ensures |reports| == Succeeded(q, onDisk, network)
    ensures forall i :: 0 <= i < |reports| ==> reports[i] == (i + 1, |q|)
  {
    reports := [];
    if |q| == 0 {
      return;
    }
    var total := |q|;
    var completed := 0;
    var i := 0;
    while i < |q|
      invariant 0 <= i <= |q|
      invariant completed == Succeeded(q[..i], onDisk, network)
      invariant |reports| == completed
      invariant forall j :: 0 <= j < |reports| ==> reports[j] == (j + 1, total)
    {
      assert q[..i + 1][..i] == q[..i];
      if DownloadFile(Some(q[i].url), q[i].path, onDisk, network) {
        completed := completed + 1;
        reports := reports + [(completed, total)];
      }
      i := i + 1;
    }
    assert q[..i] == q;
  }

  /** A task whose file is already there counts as done without a request,
      so a queue of such tasks completes in full. */
  lemma {:induction false} ExistingFilesSucceed(q: seq<Task>, onDisk: Path -> bool, network: (string, Path) -> bool)
    requires forall i :: 0 <= i < |q| ==> onDisk(q[i].path)
    ensures Succeeded(q, onDisk, network) == |q|
  {
    if |q| > 0 {
      ExistingFilesSucceed(q[..|q| - 1], onDisk, network);
    }
  }

  // ----------------------------------------------------------- sync_member

  datatype Member = Member(id: int, name: string)

  /** The `messages.json` written for a member (without the metadata). */
  datatype Export = Export(totalMessages: nat, typeCounts: TypeCounts, messages: seq<Message>)

  /** What `sync_member` leaves behind: the number it returns, the sync
      state, the download queue and the export written (None when nothing
      was written); or a fetch that never returned. */
  datatype SyncOutcome =
    | Synced(count: nat, state: SyncState, queue: seq<Task>, written: Option<Export>)
    | NotReturned

  /** The member's directory relative to the output directory:
      `{gid}_{gname}/{mid}_{mname}` with both names sanitised. */
  function MemberRel(g: Group, mem: Member): (p: Path)
    ensures |p| == 2 && '/' !in p[0] && '/' !in p[1]
    ensures Before(p[0], {'_'}) == IntToDecimal(g.id) && ParseInt(Before(p[0], {'_'})) == g.id
    ensures Before(p[1], {'_'}) == IntToDecimal(mem.id) && ParseInt(Before(p[1], {'_'})) == mem.id
  {
    DirComponent(g.id, g.name);
    DirComponent(mem.id, mem.name);
    [IntToDecimal(g.id) + "_" + SanitizeName(g.name), IntToDecimal(mem.id) + "_" + SanitizeName(mem.name)]
  }

  /** One component `{id}_{name}`: no `/`, and the id reads back from the
      text before the first `_`. */
  lemma DirComponent(id: int, name: string)
    ensures var c := IntToDecimal(id) + "_" + SanitizeName(name);
      && '/' !in c && Before(c, {'_'}) == IntToDecimal(id) && ParseInt(Before(c, {'_'})) == id
  {
    NoSeparator(id);
    BeforeSeparator(IntToDecimal(id), SanitizeName(name));
    ParseIntToDecimal(id);
  }

  /** The merged export written after a successful fetch. */
  function ExportOf(existing: seq<Message>, processed: seq<Message>): (e: Export)
    ensures e.totalMessages == |e.messages|
    ensures Total(e.typeCounts) <= e.totalMessages
    ensures UniqueIds(e.messages) && SortedByKey(e.messages)
  {
    var merged := MergeMessages(existing, processed);
    Export(|merged|, CountTypes(merged), merged)
  }

  /** What `sync_member` promises about a call that returned: the queue
      only grows at its end; no pair but the member's own gains, loses or
      changes an entry; without a written export it returns 0 and leaves
      the state alone; with one, the export has no repeated id and is in
      timestamp order, and the member's checkpoint is the one computed
      from the export. */
  predicate SyncedFaithfully(st: SyncState, g: int, m: int, queue: seq<Task>, r: SyncOutcome)
    requires r.Synced?
  {
    && |r.queue| >= |queue| && r.queue[..|queue|] == queue
    && (forall k :: k in st && k != SyncKey(g, m) ==> k in r.state && r.state[k] == st[k])
    && r.state.Keys <= st.Keys + {SyncKey(g, m)}
    && (r.written.None? ==> r.count == 0 && r.state == st)
    && (r.written.Some? ==>
      && r.written.value.totalMessages == |r.written.value.messages|
      && UniqueIds(r.written.value.messages) && SortedByKey(r.written.value.messages)
      && GetLastId(r.state, g, m) == Some(NewCheckpoint(r.written.value.messages, GetLastId(st, g, m))))
  }

  /** `sync_member`, fetching with `get_messages` as written. `existing`
      is the stored `messages` list (empty when the file is missing or
      unreadable), `writeOk` whether writing `messages.json` succeeds and
      `now` the clock. A fetch that raises, a member without new messages
      and a failed write all return 0; only a written export moves the
      checkpoint, and no other pair's entry changes. */
  function SyncMember(st: SyncState, c: Client, g: Group, mem: Member, outputDir: Path,
                      existing: seq<Message>, queue: seq<Task>,
                      fetch: (Client, Pagination.Request) -> Option<Pagination.Page>, post: Client -> Option<string>,
                      fuel: nat, onDisk: Path -> bool, writeOk: bool, now: string): (r: SyncOutcome)
    ensures r.Synced? ==> SyncedFaithfully(st, g.id, mem.id, queue, r)
    ensures r.NotReturned? <==> Pagination.GetMessages(c, GetLastId(st, g.id, mem.id), fetch, post, fuel).OutOfFuel?
  {
    var since := GetLastId(st, g.id, mem.id);
    match Pagination.GetMessages(c, since, fetch, post, fuel)
    case OutOfFuel => NotReturned
    case RaisedMissingId => Synced(0, st, queue, None)
    case Fetched(ms, _, _, _) => SyncFetched(st, g, mem, outputDir, existing, queue, ms, onDisk, writeOk, now)
  }

  /** Whether building the export's member block raises: the group's
      `subscription` is JSON null, so `group.get('subscription', {})` is
      None and its `.get('state')` fails. A missing field falls back to
      `{}` and an object is read; neither raises. */
  predicate MetadataRaises(g: Group) {
    g.subscription == NullSubscription
  }

  /** The part of `sync_member` after the fetch returned `ms`. A member
      block that raises and a failed write both end in the `except` clause:
      the queue keeps the downloads already added, nothing is written and
      0 is returned. */
  function SyncFetched(st: SyncState, g: Group, mem: Member, outputDir: Path, existing: seq<Message>,
                       queue: seq<Task>, ms: seq<RawMessage>, onDisk: Path -> bool, writeOk: bool, now: string): (r: SyncOutcome)
    requires Pagination.StrictlyAscendingIds(ms)
    ensures r.Synced? && SyncedFaithfully(st, g.id, mem.id, queue, r)
    ensures r.written.Some? <==> writeOk && !MetadataRaises(g) && FilterMember(ms, mem.id) != []
    ensures r.count == if r.written.Some? then |KeptIds(FilterMember(ms, mem.id))| else 0
  {
    var since := GetLastId(st, g.id, mem.id);
    var mine := FilterMember(ms, mem.id);
    if mine == [] then Synced(0, st, queue, None)
    else
      var prep := PrepareMessages(mine, outputDir, MemberRel(g, mem), onDisk);
      var queue' := queue + prep.tasks;
      assert queue'[..|queue|] == queue;
      if MetadataRaises(g) || !writeOk then Synced(0, st, queue', None)
      else
        var exported := ExportOf(existing, prep.processed);
        var cp := NewCheckpoint(exported.messages, since);
        var st' := UpdateSyncState(st, g.id, mem.id, cp, |exported.messages|, now);
        GetAfterUpdate(st, g.id, mem.id, cp, |exported.messages|, now, g.id, mem.id);
        Synced(|prep.processed|, st', queue', Some(exported))
  }

  /** A group whose subscription is null fails while its export is being
      built: the downloads of the member's records stay queued, but nothing
      is written, the state is untouched and the count is 0. */
  lemma NullSubscriptionSkipsWrite(st: SyncState, g: Group, mem: Member, outputDir: Path, existing: seq<Message>,
                                   queue: seq<Task>, ms: seq<RawMessage>, onDisk: Path -> bool, writeOk: bool, now: string)
    requires Pagination.StrictlyAscendingIds(ms) && MetadataRaises(g)
    ensures var r := SyncFetched(st, g, mem, outputDir, existing, queue, ms, onDisk, writeOk, now);
      && r.written.None? && r.count == 0 && r.state == st
      && r.queue == queue + QueuedAll(FilterMember(ms, mem.id), outputDir, MemberRel(g, mem), onDisk)
  {
  }

  /** The kept ids of records strictly ascending by id are strictly
      ascending, and none exceeds the last record's id. */
  lemma {:induction false} KeptIdsAscending(ms: seq<RawMessage>)
    requires Pagination.StrictlyAscendingIds(ms)
    ensures forall i, j :: 0 <= i < j < |KeptIds(ms)| ==> KeptIds(ms)[i] < KeptIds(ms)[j]
    ensures |ms| > 0 ==> forall i :: 0 <= i < |KeptIds(ms)| ==> KeptIds(ms)[i] <= ms[|ms| - 1].id.value
  {
    if |ms| > 0 {
      var init := ms[..|ms| - 1];
      assert Pagination.StrictlyAscendingIds(init);
      KeptIdsAscending(init);
      if |init| > 0 {
        assert init[|init| - 1].id.value < ms[|ms| - 1].id.value;
      }
    }
  }

  lemma LastByIdOfUnique(d: seq<Message>, v: Message)
    requires UniqueIds(d) && v in d
    ensures LastById(d, v.id) == Some(v)
  {
    var a :| 0 <= a < |d| && d[a] == v;
    assert d[a].id == v.id;
    var l := LastById(d, v.id);
    var b :| 0 <= b < |d| && d[b] == l.value;
    assert a == b;
  }

  /** The prepared batch of a fetched member has no repeated id. */
  lemma PreparedUnique(mine: seq<RawMessage>, memberRel: Path)
    requires Pagination.StrictlyAscendingIds(mine)
    ensures UniqueIds(PreparedAll(mine, memberRel))
  {
    KeptIdsAscending(mine);
    var p := PreparedAll(mine, memberRel);
    assert forall i :: 0 <= i < |p| ==> p[i].id == Ids(p)[i] == KeptIds(mine)[i];
  }

  /** A fetch with records for the member and a write that succeeds
      writes the export unless the group's subscription is null. A written
      sync stores every kept fetched record of the member in its prepared
      form (new data replaces stored data), reports how many were kept,
      and, when one was, moves the checkpoint past a truthy previous one. */
  lemma SyncMemberWritesNewRecords(st: SyncState, c: Client, g: Group, mem: Member, outputDir: Path,
                      existing: seq<Message>, queue: seq<Task>,
                      fetch: (Client, Pagination.Request) -> Option<Pagination.Page>, post: Client -> Option<string>,
                      fuel: nat, onDisk: Path -> bool, now: string)
    requires Pagination.GetMessages(c, GetLastId(st, g.id, mem.id), fetch, post, fuel).Fetched?
    requires FilterMember(Pagination.GetMessages(c, GetLastId(st, g.id, mem.id), fetch, post, fuel).messages, mem.id) != []
    ensures var since := GetLastId(st, g.id, mem.id);
      var mine := FilterMember(Pagination.GetMessages(c, since, fetch, post, fuel).messages, mem.id);
      var r := SyncMember(st, c, g, mem, outputDir, existing, queue, fetch, post, fuel, onDisk, true, now);
      && r.Synced? && (r.written.Some? <==> !MetadataRaises(g))
      && (r.written.Some? ==>
            && r.count == |KeptIds(mine)|
            && (forall m :: m in mine && Kept(m) ==>
                  Entry(r.written.value.messages, m.id.value) == PreparedMessage(m, MemberRel(g, mem)))
            && (TruthyInt(since) && (exists m :: m in mine && Kept(m)) ==> GetLastId(r.state, g.id, mem.id).value > since.value))
  {
    var since := GetLastId(st, g.id, mem.id);
    var o := Pagination.GetMessages(c, since, fetch, post, fuel);
    if !MetadataRaises(g) {
      SyncFetchedWrites(st, g, mem, outputDir, existing, queue, o.messages, onDisk, now);
    }
  }

  lemma SyncFetchedWrites(st: SyncState, g: Group, mem: Member, outputDir: Path,
                          existing: seq<Message>, queue: seq<Task>, ms: seq<RawMessage>,
                          onDisk: Path -> bool, now: string)
    requires Pagination.StrictlyAscendingIds(ms)
    requires TruthyInt(GetLastId(st, g.id, mem.id)) ==>
      forall i :: 0 <= i < |ms| ==> ms[i].id.value > GetLastId(st, g.id, mem.id).value
    requires FilterMember(ms, mem.id) != [] && !MetadataRaises(g)
    ensures var since := GetLastId(st, g.id, mem.id);
      var mine := FilterMember(ms, mem.id);
      var r := SyncFetched(st, g, mem, outputDir, existing, queue, ms, onDisk, true, now);
      && r.written.Some?
      && r.count == |KeptIds(mine)|
      && (forall m :: m in mine && Kept(m) ==>
            Entry(r.written.value.messages, m.id.value) == PreparedMessage(m, MemberRel(g, mem)))
      && (TruthyInt(since) && (exists m :: m in mine && Kept(m)) ==> GetLastId(r.state, g.id, mem.id).value > since.value)
  {
    var since := GetLastId(st, g.id, mem.id);
    var mine := FilterMember(ms, mem.id);
    var rel := MemberRel(g, mem);
    var processed := PreparedAll(mine, rel);
    PreparedUnique(mine, rel);
    var merged := MergeMessages(existing, processed);
    SyncFetchedShape(st, g, mem, outputDir, existing, queue, ms, onDisk, now);
    MergedHoldsPrepared(existing, mine, rel);
    if TruthyInt(since) && exists m :: m in mine && Kept(m) {
      var m :| m in mine && Kept(m);
      assert m in ms;
      var i :| 0 <= i < |ms| && ms[i] == m;
      CheckpointPast(merged, since, m.id.value);
    }
  }

  /** A fetch with new records for the member, written successfully: the
      outcome in terms of the prepared batch and the merged export. */
  lemma SyncFetchedShape(st: SyncState, g: Group, mem: Member, outputDir: Path,
                         existing: seq<Message>, queue: seq<Task>, ms: seq<RawMessage>,
                         onDisk: Path -> bool, now: string)
    requires Pagination.StrictlyAscendingIds(ms)
    requires FilterMember(ms, mem.id) != [] && !MetadataRaises(g)
    ensures var prep := PrepareMessages(FilterMember(ms, mem.id), outputDir, MemberRel(g, mem), onDisk);
      var exported := ExportOf(existing, prep.processed);
      var cp := NewCheckpoint(exported.messages, GetLastId(st, g.id, mem.id));
      SyncFetched(st, g, mem, outputDir, existing, queue, ms, onDisk, true, now) ==
        Synced(|prep.processed|, UpdateSyncState(st, g.id, mem.id, cp, |exported.messages|, now),
               queue + prep.tasks, Some(exported))
  {
  }

  /** After the merge every kept record of the batch is found under its id
      in its prepared form. */
  lemma MergedHoldsPrepared(existing: seq<Message>, mine: seq<RawMessage>, rel: Path)
    requires Pagination.StrictlyAscendingIds(mine)
    ensures forall m :: m in mine && Kept(m) ==>
      Entry(MergeMessages(existing, PreparedAll(mine, rel)), m.id.value) == PreparedMessage(m, rel)
  {
    var processed := PreparedAll(mine, rel);
    PreparedUnique(mine, rel);
    forall m | m in mine && Kept(m)
      ensures Entry(MergeMessages(existing, processed), m.id.value) == PreparedMessage(m, rel)
    {
      var i :| 0 <= i < |mine| && mine[i] == m;
      var v := PreparedMessage(m, rel).value;
      assert v in processed;
      LastByIdOfUnique(processed, v);
    }
  }

  /** A merged list holding an id above a truthy checkpoint moves the
      checkpoint past it. */
  lemma CheckpointPast(merged: seq<Message>, since: Option<int>, k: int)
    requires TruthyInt(since) && k > since.value && Entry(merged, k).Some?
    ensures NewCheckpoint(merged, since) > since.value
  {
    var j := IndexOf(Ids(merged), k).value;
    assert merged[j].id == k;
  }
}

=== FILE: merge.dfy ===
/** The bookkeeping block of `SyncManager.sync_member`
    (`src/pymsg/manager.py`): the stored messages and the new ones merged
    into a dictionary keyed by id (new data preferred), its values sorted by
    timestamp, the per-type counts and the new checkpoint.

    A Python dictionary remembers where each key was first inserted:
    assigning to an existing key replaces the value in place, a new key goes
    to the end. The merge is modelled on a sequence with exactly that
    behaviour, so that the order `sort` starts from (and keeps for equal
    timestamps) is the source's. */
module Merge {
  import opened Base
  import opened Strings
  import opened Utils

  // ---------------------------------------------------------- keyed lists

  function Ids(d: seq<Message>): (r: seq<int>)
    ensures |r| == |d| && forall i :: 0 <= i < |d| ==> r[i] == d[i].id
  {
    seq(|d|, i requires 0 <= i < |d| => d[i].id)
  }

  /** The first position of `k`. */
  function IndexOf(ids: seq<int>, k: int): (r: Option<nat>)
    ensures r.Some? ==> r.value < |ids| && ids[r.value] == k && forall j :: 0 <= j < r.value ==> ids[j] != k
    ensures r.None? ==> k !in ids
  {
    if |ids| == 0 then None
    else if ids[0] == k then Some(0)
    else match IndexOf(ids[1..], k)
      case Some(i) => Some(i + 1)
      case None => None
  }

  lemma FirstIndex(ids: seq<int>, k: int, a: nat)
    requires a < |ids| && ids[a] == k
    requires forall j :: 0 <= j < a ==> ids[j] != k
    ensures IndexOf(ids, k) == Some(a)
  {
  }

  /** `d[k]` for the dictionary the list stands for: the entry at the
      key's position, None for a missing key. */
  function Entry(d: seq<Message>, k: int): Option<Message> {
    match IndexOf(Ids(d), k)
    case Some(i) => Some(d[i])
    case None => None
  }

  predicate UniqueIds(d: seq<Message>) {
    forall i, j :: 0 <= i < j < |d| ==> d[i].id != d[j].id
  }

  /** In a list without repeated ids, the entry for `k` is the one element
      with that id. */
  lemma EntryOfUnique(d: seq<Message>, k: int, v: Message)
    requires UniqueIds(d)
    ensures Entry(d, k) == Some(v) <==> v in d && v.id == k
  {
    if v in d && v.id == k {
      var a :| 0 <= a < |d| && d[a] == v;
      FirstIndex(Ids(d), k, a);
    }
  }

  lemma EntryAt(d: seq<Message>, i: nat)
    requires UniqueIds(d) && i < |d|
    ensures Entry(d, d[i].id) == Some(d[i])
  {
    EntryOfUnique(d, d[i].id, d[i]);
  }

  /** The last record of `ms` with id `k`: the value a dictionary built
      from `ms` in order holds for `k`. */
  function LastById(ms: seq<Message>, k: int): (r: Option<Message>)
    ensures r.Some? ==> r.value in ms && r.value.id == k
    ensures r.None? ==> forall i :: 0 <= i < |ms| ==> ms[i].id != k
  {
    if |ms| == 0 then None
    else if ms[|ms| - 1].id == k then Some(ms[|ms| - 1])
    else LastById(ms[..|ms| - 1], k)
  }

  // --------------------------------------------------------------- upsert

  /** `d[m['id']] = m`. */
  function Upsert(d: seq<Message>, m: Message): (r: seq<Message>)
    ensures |d| <= |r| <= |d| + 1
    ensures forall i :: 0 <= i < |d| ==> r[i].id == d[i].id
    ensures |r| == |d| + 1 <==> m.id !in Ids(d)
    ensures |r| == |d| + 1 ==> r[|d|] == m
    ensures UniqueIds(d) ==> UniqueIds(r)
  {
    match IndexOf(Ids(d), m.id)
    case Some(i) => d[i := m]
    case None => d + [m]
  }

  /** After `d[m['id']] = m`, key `m['id']` holds `m` and every other key
      what it held before. */
  lemma UpsertEntry(d: seq<Message>, m: Message, k: int)
    ensures Entry(Upsert(d, m), k) == if k == m.id then Some(m) else Entry(d, k)
  {
    var r := Upsert(d, m);
    match IndexOf(Ids(d), m.id)
    case Some(i) =>
      assert Ids(r) == Ids(d);
    case None =>
      assert Ids(r) == Ids(d) + [m.id];
      match IndexOf(Ids(d), k)
      case Some(j) =>
        FirstIndex(Ids(r), k, j);
      case None =>
        if k == m.id {
          FirstIndex(Ids(r), k, |d|);
        } else {
          assert k !in Ids(r);
        }
  }

  /** `for m in ms: d[m['id']] = m`. */
  function UpsertAll(d: seq<Message>, ms: seq<Message>): (r: seq<Message>)
    ensures |r| >= |d|
    ensures forall i :: 0 <= i < |d| ==> r[i].id == d[i].id
    ensures (forall i :: 0 <= i < |ms| ==> ms[i].id in Ids(d)) ==> |r| == |d|
    ensures UniqueIds(d) ==> UniqueIds(r)
  {
    if |ms| == 0 then d
    else
      var before := UpsertAll(d, ms[..|ms| - 1]);
      var m := ms[|ms| - 1];
      assert (forall i :: 0 <= i < |ms| ==> ms[i].id in Ids(d)) ==> Ids(before) == Ids(d);
      Upsert(before, m)
  }

  /** Upserting a batch: every key of the batch holds the batch's last
      record with that key, every other key what it held before. */
  lemma {:induction false} UpsertAllEntry(d: seq<Message>, ms: seq<Message>, k: int)
    ensures Entry(UpsertAll(d, ms), k) == if LastById(ms, k).Some? then LastById(ms, k) else Entry(d, k)
  {
    if |ms| > 0 {
      UpsertAllEntry(d, ms[..|ms| - 1], k);
      UpsertEntry(UpsertAll(d, ms[..|ms| - 1]), ms[|ms| - 1], k);
    }
  }

  /** `{x['id']: x for x in existing}` followed by the upsert of the new
      records: the dictionary before its values are listed. */
  function MergeById(existing: seq<Message>, incoming: seq<Message>): (r: seq<Message>)
    ensures UniqueIds(r)
  {
    UpsertAll(UpsertAll([], existing), incoming)
  }

  // ------------------------------------------------------------------ sort

  /** The sort key `x.get('timestamp') or ''`. */
  function Key(m: Message): string {
    m.timestamp.GetOr("")
  }

  predicate SortedByKey(s: seq<Message>) {
    forall i, j :: 0 <= i < j < |s| ==> LexLe(Key(s[i]), Key(s[j]))
  }

  /** Where a stable insertion puts `x` into sorted `s`: after every element
      whose key is at most `x`'s. */
  function InsertPos(s: seq<Message>, x: Message): (p: nat)
    ensures p <= |s|
    ensures p > 0 ==> LexLe(Key(s[p - 1]), Key(x))
    ensures forall i :: p <= i < |s| ==> !LexLe(Key(s[i]), Key(x))
  {
    if |s| == 0 then 0
    else if LexLe(Key(s[|s| - 1]), Key(x)) then |s|
    else InsertPos(s[..|s| - 1], x)
  }

  function Insert(s: seq<Message>, x: Message): (r: seq<Message>)
    ensures |r| == |s| + 1
    ensures multiset(r) == multiset(s) + multiset{x}
  {
    var p := InsertPos(s, x);
    assert s == s[..p] + s[p..];
    s[..p] + [x] + s[p..]
  }

  lemma InsertSorted(s: seq<Message>, x: Message)
    requires SortedByKey(s)
    ensures SortedByKey(Insert(s, x))
  {
    var p := InsertPos(s, x);
    var r := Insert(s, x);
    forall i, j | 0 <= i < j < |r|
      ensures LexLe(Key(r[i]), Key(r[j]))
    {
      if j < p {
        assert r[i] == s[i] && r[j] == s[j];
      } else if j == p {
        assert r[i] == s[i];
        LexLeTrans(Key(s[i]), Key(s[p - 1]), Key(x));
      } else if i == p {
        assert r[j] == s[j - 1];
        LexLeTotal(Key(x), Key(s[j - 1]));
      } else if i < p {
        assert r[i] == s[i] && r[j] == s[j - 1];
      } else {
        assert r[i] == s[i - 1] && r[j] == s[j - 1];
      }
    }
  }

  /** `merged.sort(key=...)`: Python's sort is stable, modelled as an
      insertion sort that puts each element after its equals. */
  function SortByKey(s: seq<Message>): (r: seq<Message>)
    ensures |r| == |s|
    ensures multiset(r) == multiset(s)
    ensures SortedByKey(r)
  {
    if |s| == 0 then []
    else
      var rest := SortByKey(s[..|s| - 1]);
      InsertSorted(rest, s[|s| - 1]);
      assert s == s[..|s| - 1] + [s[|s| - 1]];
      Insert(rest, s[|s| - 1])
  }

  /** The elements of `s` whose key is `t`, in order. */
  function KeyClass(s: seq<Message>, t: string): seq<Message> {
    if |s| == 0 then []
    else KeyClass(s[..|s| - 1], t) + (if Key(s[|s| - 1]) == t then [s[|s| - 1]] else [])
  }

  lemma {:induction false} KeyClassAppend(a: seq<Message>, b: seq<Message>, t: string)
    ensures KeyClass(a + b, t) == KeyClass(a, t) + KeyClass(b, t)
  {
    if |b| == 0 {
      assert a + b == a;
    } else {
      assert (a + b)[..|a + b| - 1] == a + b[..|b| - 1];
      KeyClassAppend(a, b[..|b| - 1], t);
    }
  }

  lemma {:induction false} KeyClassNone(s: seq<Message>, t: string)
    requires forall i :: 0 <= i < |s| ==> Key(s[i]) != t
    ensures KeyClass(s, t) == []
  {
    if |s| > 0 {
      KeyClassNone(s[..|s| - 1], t);
    }
  }

  lemma KeyClassOne(x: Message, t: string)
    ensures KeyClass([x], t) == if Key(x) == t then [x] else []
  {
    assert [x][..0] == [];
  }

  lemma KeyClassThree(a: seq<Message>, x: Message, b: seq<Message>, t: string)
    ensures KeyClass(a + [x] + b, t) == KeyClass(a, t) + KeyClass([x], t) + KeyClass(b, t)
  {
    KeyClassAppend(a + [x], b, t);
    KeyClassAppend(a, [x], t);
  }

  /** Nothing after the inserted element shares its key. */
  lemma InsertTailOtherKeys(s: seq<Message>, x: Message)
    ensures var p := InsertPos(s, x);
      forall i :: p <= i < |s| ==> Key(s[i]) != Key(x)
  {
    LexLeRefl(Key(x));
  }

  /** Inserting `x` adds it at the end of its key's class: everything
      after it has a greater key. */
  lemma InsertKeyClass(s: seq<Message>, x: Message, t: string)
    ensures KeyClass(Insert(s, x), t) == KeyClass(s, t) + (if Key(x) == t then [x] else [])
  {
    var p := InsertPos(s, x);
    var front, back := s[..p], s[p..];
    InsertShape(s, x);
    KeyClassThree(front, x, back, t);
    KeyClassSplit(s, p, t);
    KeyClassOne(x, t);
    var kf := KeyClass(front, t);
    if Key(x) == t {
      InsertTailOtherKeys(s, x);
      BackOtherKeys(s, p, t);
      KeyClassNone(back, t);
      assert kf + [x] + [] == kf + [x];
      assert kf + [] == kf;
    } else {
      assert kf + [] + KeyClass(back, t) == kf + KeyClass(back, t);
      assert KeyClass(s, t) + [] == KeyClass(s, t);
    }
  }

  lemma InsertShape(s: seq<Message>, x: Message)
    ensures Insert(s, x) == s[..InsertPos(s, x)] + [x] + s[InsertPos(s, x)..]
  {
  }

  lemma KeyClassSplit(s: seq<Message>, p: nat, t: string)
    requires p <= |s|
    ensures KeyClass(s, t) == KeyClass(s[..p], t) + KeyClass(s[p..], t)
  {
    KeyClassAppend(s[..p], s[p..], t);
    assert s[..p] + s[p..] == s;
  }

  lemma BackOtherKeys(s: seq<Message>, p: nat, t: string)
    requires p <= |s|
    requires forall i :: p <= i < |s| ==> Key(s[i]) != t
    ensures forall i :: 0 <= i < |s[p..]| ==> Key(s[p..][i]) != t
  {
    assert forall i :: 0 <= i < |s[p..]| ==> s[p..][i] == s[p + i];
  }

  /** The sort is stable: messages with equal timestamps keep their
      relative order. */
  lemma {:induction false} SortIsStable(s: seq<Message>, t: string)
    ensures KeyClass(SortByKey(s), t) == KeyClass(s, t)
  {
    if |s| > 0 {
      SortIsStable(s[..|s| - 1], t);
      InsertKeyClass(SortByKey(s[..|s| - 1]), s[|s| - 1], t);
    }
  }

  /** Sorting what is already sorted changes nothing. */
  lemma {:induction false} SortSortedIsIdentity(s: seq<Message>)
    requires SortedByKey(s)
    ensures SortByKey(s) == s
  {
    if |s| > 0 {
      var init := s[..|s| - 1];
      var x := s[|s| - 1];
      SortedPrefix(s);
      SortSortedIsIdentity(init);
      assert SortByKey(s) == Insert(SortByKey(init), x);
      if |init| > 0 {
        assert LexLe(Key(init[|init| - 1]), Key(x));
      }
      InsertAfterLast(init, x);
      assert init + [x] == s;
    }
  }

  lemma SortedPrefix(s: seq<Message>)
    requires |s| > 0 && SortedByKey(s)
    ensures SortedByKey(s[..|s| - 1])
  {
    var init := s[..|s| - 1];
    forall i, j | 0 <= i < j < |init|
      ensures LexLe(Key(init[i]), Key(init[j]))
    {
      assert init[i] == s[i] && init[j] == s[j];
    }
  }

  /** An element whose key is at least the last one's goes to the end. */
  lemma InsertAfterLast(s: seq<Message>, x: Message)
    requires |s| == 0 || LexLe(Key(s[|s| - 1]), Key(x))
    ensures Insert(s, x) == s + [x]
  {
    assert InsertPos(s, x) == |s|;
    assert s[..|s|] == s;
  }

  lemma InMultiset(a: seq<Message>, b: seq<Message>, x: Message)
    requires multiset(a) == multiset(b)
    ensures x in a <==> x in b
  {
    assert x in a <==> x in multiset(a);
    assert x in b <==> x in multiset(b);
  }

  lemma InsertUnique(rest: seq<Message>, x: Message)
    requires UniqueIds(rest)
    requires forall y :: y in rest ==> y.id != x.id
    ensures UniqueIds(Insert(rest, x))
  {
    var p := InsertPos(rest, x);
    var r := Insert(rest, x);
    forall i, j | 0 <= i < j < |r|
      ensures r[i].id != r[j].id
    {
      if j < p {
        assert r[i] == rest[i] && r[j] == rest[j];
      } else if j == p {
        assert r[i] == rest[i] && r[j] == x;
      } else if i == p {
        assert r[i] == x && r[j] == rest[j - 1];
      } else if i < p {
        assert r[i] == rest[i] && r[j] == rest[j - 1];
      } else {
        assert r[i] == rest[i - 1] && r[j] == rest[j - 1];
      }
    }
  }

  /** Sorting a list without repeated ids keeps it so. */
  lemma {:induction false} SortKeepsUniqueIds(s: seq<Message>)
    requires UniqueIds(s)
    ensures UniqueIds(SortByKey(s))
  {
    if |s| > 0 {
      var init := s[..|s| - 1];
      var x := s[|s| - 1];
      SortKeepsUniqueIds(init);
      var rest := SortByKey(init);
      forall y | y in rest ensures y.id != x.id {
        InMultiset(rest, init, y);
        var a :| 0 <= a < |init| && init[a] == y;
        assert s[a] == y;
      }
      InsertUnique(rest, x);
    }
  }

  // ----------------------------------------------------------------- merge

  /** The merged message list: the stored messages upserted with the new
      ones, sorted by timestamp. No id occurs twice, a new message replaces
      the stored one with its id, a stored message the new batch does not
      mention is kept as it was, nothing else appears, and the list is in
      timestamp order. */
  function MergeMessages(existing: seq<Message>, incoming: seq<Message>): (r: seq<Message>)
    ensures UniqueIds(r)
    ensures SortedByKey(r)
    ensures multiset(r) == multiset(MergeById(existing, incoming))
    ensures forall k :: Entry(r, k) == if LastById(incoming, k).Some? then LastById(incoming, k) else LastById(existing, k)
  {
    var d := MergeById(existing, incoming);
    var r := SortByKey(d);
    SortKeepsUniqueIds(d);
    forall k ensures Entry(r, k) == if LastById(incoming, k).Some? then LastById(incoming, k) else LastById(existing, k) {
      UpsertAllEntry(UpsertAll([], existing), incoming, k);
      UpsertAllEntry([], existing, k);
      assert Entry([], k) == None;
      PermutationEntry(d, r, k);
    }
    r
  }

  lemma PermutationEntry(a: seq<Message>, b: seq<Message>, k: int)
    requires UniqueIds(a) && UniqueIds(b) && multiset(a) == multiset(b)
    ensures Entry(a, k) == Entry(b, k)
  {
    if Entry(a, k).Some? {
      var v := Entry(a, k).value;
      EntryOfUnique(a, k, v);
      InMultiset(a, b, v);
      EntryOfUnique(b, k, v);
    } else if Entry(b, k).Some? {
      var v := Entry(b, k).value;
      EntryOfUnique(b, k, v);
      InMultiset(a, b, v);
      EntryOfUnique(a, k, v);
    }
  }

  /** The ids of the merged list are those of the stored and the new
      messages together. */
  lemma MergedIds(existing: seq<Message>, incoming: seq<Message>, k: int)
    ensures (exists v :: v in MergeMessages(existing, incoming) && v.id == k)
        <==> (exists v :: v in existing && v.id == k) || (exists v :: v in incoming && v.id == k)
  {
    var r := MergeMessages(existing, incoming);
    var e := Entry(r, k);
    if e.Some? {
      EntryOfUnique(r, k, e.value);
    }
    if v :| v in r && v.id == k {
      EntryOfUnique(r, k, v);
    }
    if v :| v in existing && v.id == k {
      var i :| 0 <= i < |existing| && existing[i] == v;
    }
    if v :| v in incoming && v.id == k {
      var i :| 0 <= i < |incoming| && incoming[i] == v;
    }
  }

  /** Upserting the stored list of a previous merge back into an empty
      dictionary rebuilds it exactly. */
  lemma {:induction false} UpsertAllFresh(s: seq<Message>)
    requires UniqueIds(s)
    ensures UpsertAll([], s) == s
  {
    if |s| > 0 {
      var init := s[..|s| - 1];
      UpsertAllFresh(init);
      assert s[|s| - 1].id !in Ids(init);
      assert init + [s[|s| - 1]] == s;
    }
  }

  /** Upserting records that every key already holds changes nothing. */
  lemma UpsertAllNoop(d: seq<Message>, ms: seq<Message>)
    requires UniqueIds(d)
    requires forall k :: LastById(ms, k).Some? ==> Entry(d, k) == LastById(ms, k)
    ensures UpsertAll(d, ms) == d
  {
    var r := UpsertAll(d, ms);
    forall i | 0 <= i < |ms| ensures ms[i].id in Ids(d) {
      var k := ms[i].id;
      assert LastById(ms, k).Some?;
      assert Entry(d, k).Some?;
    }
    assert |r| == |d|;
    forall i | 0 <= i < |d| ensures r[i] == d[i] {
      var k := d[i].id;
      UpsertAllEntry(d, ms, k);
      EntryAt(d, i);
      EntryAt(r, i);
    }
  }

  /** Merging the same batch twice gives the same list as merging it once. */
  lemma MergeIdempotent(existing: seq<Message>, incoming: seq<Message>)
    ensures MergeMessages(MergeMessages(existing, incoming), incoming) == MergeMessages(existing, incoming)
  {
    var s := MergeMessages(existing, incoming);
    UpsertAllFresh(s);
    UpsertAllNoop(s, incoming);
    SortSortedIsIdentity(s);
  }

  // ---------------------------------------------------------------- counts

  /** `message_type_counts`. */
  datatype TypeCounts = TypeCounts(text: nat, video: nat, picture: nat, voice: nat)

  const CountedTypes: set<string> := {"text", "video", "picture", "voice"}

  function Tally(c: TypeCounts, name: string): (c': TypeCounts) {
    if name == "text" then c.(text := c.text + 1)
    else if name == "video" then c.(video := c.video + 1)
    else if name == "picture" then c.(picture := c.picture + 1)
    else if name == "voice" then c.(voice := c.voice + 1)
    else c
  }

  function Total(c: TypeCounts): nat {
    c.text + c.video + c.picture + c.voice
  }

  /** The number of messages whose type has the given name. */
  function CountNamed(s: seq<Message>, name: string): (n: nat)
    ensures n <= |s|
  {
    if |s| == 0 then 0
    else CountNamed(s[..|s| - 1], name) + (if s[|s| - 1].msgType.Name() == name then 1 else 0)
  }

  /** The per-type counts: each is the number of messages of that type, the
      four add up to at most the number of messages, and exactly to it when
      every message has one of the four types. */
  function CountTypes(s: seq<Message>): (c: TypeCounts)
    ensures c.text == CountNamed(s, "text") && c.video == CountNamed(s, "video")
    ensures c.picture == CountNamed(s, "picture") && c.voice == CountNamed(s, "voice")
    ensures Total(c) <= |s|
    ensures Total(c) == |s| <==> AllCounted(s)
  {
    if |s| == 0 then TypeCounts(0, 0, 0, 0)
    else
      var init := s[..|s| - 1];
      var c := CountTypes(init);
      var name := s[|s| - 1].msgType.Name();
      TallyOne(c, name);
      AllCountedSnoc(s);
      Tally(c, name)
  }

  lemma TallyOne(c: TypeCounts, name: string)
    ensures Tally(c, name).text == c.text + (if name == "text" then 1 else 0)
    ensures Tally(c, name).video == c.video + (if name == "video" then 1 else 0)
    ensures Tally(c, name).picture == c.picture + (if name == "picture" then 1 else 0)
    ensures Tally(c, name).voice == c.voice + (if name == "voice" then 1 else 0)
    ensures Total(Tally(c, name)) == Total(c) + (if name in CountedTypes then 1 else 0)
  {
  }

  /** Every message has one of the four counted types. */
  predicate AllCounted(s: seq<Message>) {
    forall i :: 0 <= i < |s| ==> s[i].msgType.Name() in CountedTypes
  }

  lemma AllCountedSnoc(s: seq<Message>)
    requires |s| > 0
    ensures AllCounted(s) <==> AllCounted(s[..|s| - 1]) && s[|s| - 1].msgType.Name() in CountedTypes
  {
    assert forall i :: 0 <= i < |s| - 1 ==> s[..|s| - 1][i] == s[i];
  }

  // ------------------------------------------------------------ checkpoint

  function MaxId(s: seq<Message>): (m: int)
    requires |s| > 0
    ensures m in Ids(s)
    ensures forall i :: 0 <= i < |s| ==> s[i].id <= m
  {
    if |s| == 1 then s[0].id
    else
      var m := MaxId(s[..|s| - 1]);
      assert forall i :: 0 <= i < |s| - 1 ==> s[i] == s[..|s| - 1][i];
      if s[|s| - 1].id > m then s[|s| - 1].id else m
  }

  /** `max(x['id'] for x in merged) if merged else (last_id or 0)`. */
  function NewCheckpoint(merged: seq<Message>, lastId: Option<int>): (r: int)
    ensures |merged| == 0 ==> r == (if TruthyInt(lastId) then lastId.value else 0)
    ensures |merged| > 0 ==> r in Ids(merged) && forall i :: 0 <= i < |merged| ==> merged[i].id <= r
  {
    if |merged| > 0 then MaxId(merged) else lastId.GetOr(0)
  }
}

=== FILE: pagination.dfy ===
/** The paginated incremental fetch of `HinatazakaClient.get_messages`
    (`src/pymsg/client.py`). The timeline endpoint is an oracle from the
    client and the request to a page (None when the response is missing or
    empty), the refresh request is the oracle of `Client.Refresh`, and the
    `while True` loop is a walk bounded by fuel: running out of fuel stands
    for a loop that has not returned. */
module Pagination {
  import opened Base
  import opened Utils
  import opened Client

  /** Messages requested per page, newest first. */
  const PageSize: nat := 200
  const PageOrder: string := "desc"

  /** The query of one `GET /groups/{id}/timeline` request. */
  datatype Request = Request(count: nat, order: string, continuation: Option<string>)

  /** A timeline response: its records, newest first, and the cursor of
      the next older page. */
  datatype Page = Page(messages: seq<RawMessage>, continuation: Option<string>)

  /** How often a failed first page may be answered by a token refresh:
      as the source does (on every failure while still on the first page),
      or once per walk. */
  datatype RefreshPolicy = WhileFirstPage | OncePerWalk

  /** The loop state: the client (its token changes on refresh), the
      records gathered by id, the page number, the cursor to submit, the
      refreshes made, and the pages received so far. */
  datatype Cursor = Cursor(
    client: Client,
    acc: map<int, RawMessage>,
    page: nat,
    cont: Option<string>,
    refreshes: nat,
    trace: seq<Page>)

  datatype Step = Continue(next: Cursor) | Stop(last: Cursor) | Raise

  /** What a walk ends with: the records sorted by id (with the pages that
      were received and the refreshes made), a KeyError on a record
      without an id, or a loop that had not ended when the fuel ran out. */
  datatype Outcome =
    | Fetched(messages: seq<RawMessage>, client: Client, trace: seq<Page>, refreshes: nat)
    | RaisedMissingId
    | OutOfFuel

  function Start(c: Client): Cursor {
    Cursor(c, map[], 0, None, 0, [])
  }

  /** The request for the cursor's page: the continuation is sent only
      when it is truthy. */
  function RequestFor(cur: Cursor): (rq: Request)
    ensures rq.count == PageSize && rq.order == PageOrder
    ensures rq.continuation.Some? <==> TruthyStr(cur.cont)
    ensures TruthyStr(cur.cont) ==> rq.continuation == cur.cont
  {
    Request(PageSize, PageOrder, if TruthyStr(cur.cont) then cur.cont else None)
  }

  // ------------------------------------------------------ reference model

  /** A record is kept when it has an id above the checkpoint; a falsy
      checkpoint (None or 0) is no boundary at all. */
  predicate Fresh(m: RawMessage, since: Option<int>) {
    m.id.Some? && !(TruthyInt(since) && m.id.value <= since.value)
  }

  /** The length of the leading run of fresh records of a page. */
  function FreshRun(ms: seq<RawMessage>, since: Option<int>): (n: nat)
    ensures n <= |ms|
    ensures forall k :: 0 <= k < n ==> Fresh(ms[k], since)
    ensures n < |ms| ==> !Fresh(ms[n], since)
  {
    if |ms| == 0 || !Fresh(ms[0], since) then 0 else 1 + FreshRun(ms[1..], since)
  }

  /** The records of a page that are taken: those before the first one
      at or below the checkpoint. */
  function Accepted(ms: seq<RawMessage>, since: Option<int>): (rs: seq<RawMessage>)
    ensures AllHaveIds(rs) && |rs| <= |ms|
  {
    ms[..FreshRun(ms, since)]
  }

  /** The records taken from every page received, in the order received. */
  function AcceptedAll(trace: seq<Page>, since: Option<int>): (rs: seq<RawMessage>)
    ensures forall i :: 0 <= i < |rs| ==> Fresh(rs[i], since)
  {
    if |trace| == 0 then []
    else AcceptedAll(trace[..|trace| - 1], since) + Accepted(trace[|trace| - 1].messages, since)
  }

  predicate AllHaveIds(rs: seq<RawMessage>) {
    forall i :: 0 <= i < |rs| ==> rs[i].id.Some?
  }

  /** `all_messages[m['id']] = m` for each record in turn. */
  function Absorb(acc: map<int, RawMessage>, rs: seq<RawMessage>): map<int, RawMessage>
    requires AllHaveIds(rs)
  {
    if |rs| == 0 then acc
    else
      var m := rs[|rs| - 1];
      Absorb(acc, rs[..|rs| - 1])[m.id.value := m]
  }

  /** The last of `rs` with id `k`: the copy a dictionary keyed by id keeps. */
  function LastWithId(rs: seq<RawMessage>, k: int): (r: Option<RawMessage>)
    ensures r.Some? ==> r.value in rs && r.value.id == Some(k)
  {
    if |rs| == 0 then None
    else if rs[|rs| - 1].id == Some(k) then Some(rs[|rs| - 1])
    else LastWithId(rs[..|rs| - 1], k)
  }

  function IdSet(rs: seq<RawMessage>): set<int> {
    set i | 0 <= i < |rs| && rs[i].id.Some? :: rs[i].id.value
  }

  function Lookup(m: map<int, RawMessage>, k: int): Option<RawMessage> {
    if k in m then Some(m[k]) else None
  }

  /** Absorbing records keeps, for each id, the last record with that id,
      and leaves every other entry alone. */
  lemma {:induction false} AbsorbSpec(acc: map<int, RawMessage>, rs: seq<RawMessage>, k: int)
    requires AllHaveIds(rs)
    ensures Lookup(Absorb(acc, rs), k) == if LastWithId(rs, k).Some? then LastWithId(rs, k) else Lookup(acc, k)
  {
    if |rs| > 0 {
      AbsorbSpec(acc, rs[..|rs| - 1], k);
    }
  }

  lemma {:induction false} AbsorbAppend(acc: map<int, RawMessage>, a: seq<RawMessage>, b: seq<RawMessage>)
    requires AllHaveIds(a) && AllHaveIds(b)
    ensures AllHaveIds(a + b)
    ensures Absorb(acc, a + b) == Absorb(Absorb(acc, a), b)
  {
    if |b| > 0 {
      assert (a + b)[..|a + b| - 1] == a + b[..|b| - 1];
      AbsorbAppend(acc, a, b[..|b| - 1]);
    } else {
      assert a + b == a;
    }
  }

  lemma AbsorbOne(acc: map<int, RawMessage>, m: RawMessage)
    requires m.id.Some?
    ensures AllHaveIds([m]) && Absorb(acc, [m]) == acc[m.id.value := m]
  {
    assert [m][..0] == [];
  }

  /** Absorbing into an empty map yields a map keyed by each record's id
      whose keys are exactly the ids of the records. */
  lemma {:induction false} AbsorbKeys(rs: seq<RawMessage>)
    requires AllHaveIds(rs)
    ensures Absorb(map[], rs).Keys == IdSet(rs)
    ensures forall k :: k in Absorb(map[], rs) ==> Absorb(map[], rs)[k].id == Some(k)
  {
    if |rs| > 0 {
      var init := rs[..|rs| - 1];
      AbsorbKeys(init);
      assert rs == init + [rs[|rs| - 1]];
      assert IdSet(rs) == IdSet(init) + {rs[|rs| - 1].id.value} by {
        forall k | k in IdSet(rs) ensures k in IdSet(init) + {rs[|rs| - 1].id.value} {
          var i :| 0 <= i < |rs| && rs[i].id.Some? && rs[i].id.value == k;
          if i < |rs| - 1 {
            assert init[i] == rs[i];
          }
        }
        forall k | k in IdSet(init) ensures k in IdSet(rs) {
          var i :| 0 <= i < |init| && init[i].id.Some? && init[i].id.value == k;
          assert rs[i] == init[i];
        }
      }
    }
  }

  // ------------------------------------------------------------- one page

  datatype Scan = Scanned(acc: map<int, RawMessage>, reachedSince: bool) | MissingId

  /** The `for m in messages` loop over one page. It only adds to what was
      gathered, and a page read to its end without meeting the checkpoint
      has every one of its records gathered. */
  function ScanPage(ms: seq<RawMessage>, since: Option<int>, acc: map<int, RawMessage>): (r: Scan)
    ensures r.Scanned? ==> acc.Keys <= r.acc.Keys
    ensures r.Scanned? && !r.reachedSince ==>
      forall i :: 0 <= i < |ms| ==> ms[i].id.Some? && ms[i].id.value in r.acc
  {
    if |ms| == 0 then Scanned(acc, false)
    else match ms[0].id
      case None => MissingId
      case Some(id) =>
        if TruthyInt(since) && id <= since.value then Scanned(acc, true)
        else ScanPage(ms[1..], since, acc[id := ms[0]])
  }

  /** The page scan takes the leading run of fresh records and stops at the
      first record at or below the checkpoint, dropping it and the rest of
      the page; a record without an id met before that raises. */
  lemma {:induction false} ScanPageSpec(ms: seq<RawMessage>, since: Option<int>, acc: map<int, RawMessage>)
    ensures var n := FreshRun(ms, since);
      ScanPage(ms, since, acc) ==
        if n < |ms| && ms[n].id.None? then MissingId
        else Scanned(Absorb(acc, Accepted(ms, since)), n < |ms|)
  {
    var n := FreshRun(ms, since);
    if |ms| > 0 && Fresh(ms[0], since) {
      var id := ms[0].id.value;
      ScanPageSpec(ms[1..], since, acc[id := ms[0]]);
      assert FreshRun(ms[1..], since) == n - 1;
      AbsorbOne(acc, ms[0]);
      assert Accepted(ms, since) == [ms[0]] + Accepted(ms[1..], since);
      AbsorbAppend(acc, [ms[0]], Accepted(ms[1..], since));
    }
  }

  // ---------------------------------------------------------------- steps

  /** The walk's invariant: the gathered records are those taken from the
      pages received, absorbed in order. */
  predicate Gathered(cur: Cursor, since: Option<int>) {
    AllHaveIds(AcceptedAll(cur.trace, since)) && cur.acc == Absorb(map[], AcceptedAll(cur.trace, since))
  }

  /** A failed fetch may be answered by a refresh: only on the first page,
      and under the corrected policy only once. */
  predicate MayRefresh(cur: Cursor, policy: RefreshPolicy) {
    cur.page == 0 && (policy == WhileFirstPage || cur.refreshes == 0)
  }

  /** One iteration of the `while True` loop. */
  function StepOf(cur: Cursor, policy: RefreshPolicy, since: Option<int>,
                  fetch: (Client, Request) -> Option<Page>, post: Client -> Option<string>): (r: Step)
    // a failed fetch: a refresh and a retry of the same page, or the end
    ensures fetch(cur.client, RequestFor(cur)).None? ==>
      if MayRefresh(cur, policy) && Refresh(cur.client, post).Some?
      then r == Continue(cur.(client := Refresh(cur.client, post).value, refreshes := cur.refreshes + 1))
      else r == Stop(cur)
    // an empty page ends the walk
    ensures fetch(cur.client, RequestFor(cur)).Some? && fetch(cur.client, RequestFor(cur)).value.messages == [] ==>
      r == Stop(cur.(trace := cur.trace + [fetch(cur.client, RequestFor(cur)).value]))
    // the walk moves to the next page only when the whole page was fresh
    // and came with a new, truthy continuation
    ensures fetch(cur.client, RequestFor(cur)).Some? ==>
      var p := fetch(cur.client, RequestFor(cur)).value;
      r.Continue? <==>
        && p.messages != []
        && FreshRun(p.messages, since) == |p.messages|
        && TruthyStr(p.continuation)
        && p.continuation != RequestFor(cur).continuation
    ensures r.Continue? ==> r.next.page == cur.page + 1 || (r.next.page == cur.page == 0 && r.next.acc == cur.acc)
    ensures r.Stop? ==> r.last.page == cur.page && r.last.client == cur.client && r.last.refreshes == cur.refreshes
    ensures Gathered(cur, since) && r.Continue? ==> Gathered(r.next, since)
    ensures Gathered(cur, since) && r.Stop? ==> Gathered(r.last, since)
    ensures r.Continue? ==> r.next.refreshes <= cur.refreshes + 1
    ensures policy == OncePerWalk && r.Continue? && cur.refreshes >= 1 ==> r.next.refreshes == cur.refreshes
  {
    var req := RequestFor(cur);
    match fetch(cur.client, req)
    case None =>
      if MayRefresh(cur, policy) then
        match Refresh(cur.client, post)
        case Some(c') => Continue(cur.(client := c', refreshes := cur.refreshes + 1))
        case None => Stop(cur)
      else Stop(cur)
    case Some(p) =>
      var received := cur.(trace := cur.trace + [p]);
      assert received.trace[..|received.trace| - 1] == cur.trace;
      if p.messages == [] then
        assert Accepted(p.messages, since) == [];
        assert AcceptedAll(received.trace, since) == AcceptedAll(cur.trace, since);
        Stop(received)
      else
        ScanPageSpec(p.messages, since, cur.acc);
        match ScanPage(p.messages, since, cur.acc)
        case MissingId => Raise
        case Scanned(acc', reached) =>
          AbsorbAppend(map[], AcceptedAll(cur.trace, since), Accepted(p.messages, since));
          var scanned := received.(acc := acc');
          if reached then Stop(scanned)
          else if !TruthyStr(p.continuation) then Stop(scanned)
          else if p.continuation == req.continuation then Stop(scanned)
          else Continue(scanned.(page := cur.page + 1, cont := p.continuation))
  }

  /** A received page raises exactly at a record without an id inside its
      fresh run. Otherwise it is recorded, absorbed up to its first stale
      record, and its continuation is the next one submitted. */
  lemma StepReceived(cur: Cursor, policy: RefreshPolicy, since: Option<int>,
                     fetch: (Client, Request) -> Option<Page>, post: Client -> Option<string>)
    requires fetch(cur.client, RequestFor(cur)).Some?
    ensures var r := StepOf(cur, policy, since, fetch, post);
      var p := fetch(cur.client, RequestFor(cur)).value;
      var n := FreshRun(p.messages, since);
      && (r.Raise? <==> n < |p.messages| && p.messages[n].id.None?)
      && (r.Continue? ==>
            && r.next.trace == cur.trace + [p] && r.next.client == cur.client && r.next.refreshes == cur.refreshes
            && r.next.cont == p.continuation && r.next.page == cur.page + 1
            && r.next.acc == Absorb(cur.acc, Accepted(p.messages, since)))
      && (r.Stop? ==> r.last.trace == cur.trace + [p] && r.last.acc == Absorb(cur.acc, Accepted(p.messages, since)))
  {
    var p := fetch(cur.client, RequestFor(cur)).value;
    ScanPageSpec(p.messages, since, cur.acc);
  }

  predicate IsPrefix(a: seq<Page>, b: seq<Page>) {
    |a| <= |b| && b[..|a|] == a
  }

  /** A step never forgets a page: the pages after it begin with the pages
      before it. */
  lemma StepExtendsTrace(cur: Cursor, policy: RefreshPolicy, since: Option<int>,
                         fetch: (Client, Request) -> Option<Page>, post: Client -> Option<string>)
    ensures var r := StepOf(cur, policy, since, fetch, post);
      && (r.Continue? ==> IsPrefix(cur.trace, r.next.trace))
      && (r.Stop? ==> IsPrefix(cur.trace, r.last.trace))
  {
    if fetch(cur.client, RequestFor(cur)).Some? {
      StepReceived(cur, policy, since, fetch, post);
    }
  }

  /** The loop, with at most `fuel` iterations. A walk that returns has
      kept every page received before it started. */
  function Walk(fuel: nat, cur: Cursor, policy: RefreshPolicy, since: Option<int>,
                fetch: (Client, Request) -> Option<Page>, post: Client -> Option<string>): (o: Outcome)
    ensures o.Fetched? ==> IsPrefix(cur.trace, o.trace)
    decreases fuel
  {
    if fuel == 0 then OutOfFuel
    else
      StepExtendsTrace(cur, policy, since, fetch, post);
      match StepOf(cur, policy, since, fetch, post)
      case Raise => RaisedMissingId
      case Stop(last) => Fetched(RecordsById(last.acc), last.client, last.trace, last.refreshes)
      case Continue(next) => Walk(fuel - 1, next, policy, since, fetch, post)
  }

  /** `sorted(all_messages.values(), key=id)`. */
  function RecordsById(acc: map<int, RawMessage>): (rs: seq<RawMessage>)
    ensures |rs| == |acc.Keys|
    ensures forall i :: 0 <= i < |rs| ==> rs[i] in acc.Values
  {
    var ids := SortedElements(acc.Keys);
    seq(|ids|, i requires 0 <= i < |ids| => acc[ids[i]])
  }

  /** Records with ids, strictly ascending by id (so no id twice). */
  predicate StrictlyAscendingIds(rs: seq<RawMessage>) {
    && AllHaveIds(rs)
    && forall i, j :: 0 <= i < j < |rs| ==> rs[i].id.value < rs[j].id.value
  }

  /** What a finished walk returns, stated against the pages it received:
      ids strictly ascending, exactly the ids taken from those pages, each
      with the last copy received, and all above a truthy checkpoint. */
  predicate ReturnsGathered(o: Outcome, since: Option<int>) {
    o.Fetched? ==>
      var taken := AcceptedAll(o.trace, since);
      && StrictlyAscendingIds(o.messages)
      && IdSet(o.messages) == IdSet(taken)
      && (forall i :: 0 <= i < |o.messages| ==> LastWithId(taken, o.messages[i].id.value) == Some(o.messages[i]))
      && (TruthyInt(since) ==> forall i :: 0 <= i < |o.messages| ==> o.messages[i].id.value > since.value)
  }

  /** The records of a map keyed by id, listed by ascending id: entry `i`
      is the record at the `i`-th smallest key. */
  lemma RecordsByIdEntries(acc: map<int, RawMessage>)
    ensures var ids := SortedElements(acc.Keys);
      var out := RecordsById(acc);
      |out| == |ids| && forall i :: 0 <= i < |out| ==> ids[i] in acc && out[i] == acc[ids[i]]
  {
  }

  lemma RecordsByIdIds(acc: map<int, RawMessage>)
    requires forall k :: k in acc ==> acc[k].id == Some(k)
    ensures var ids := SortedElements(acc.Keys);
      var out := RecordsById(acc);
      |out| == |ids| && forall i :: 0 <= i < |out| ==> out[i].id == Some(ids[i])
  {
    RecordsByIdEntries(acc);
  }

  lemma RecordsByIdSorted(acc: map<int, RawMessage>)
    requires forall k :: k in acc ==> acc[k].id == Some(k)
    ensures StrictlyAscendingIds(RecordsById(acc))
    ensures IdSet(RecordsById(acc)) == acc.Keys
  {
    RecordsByIdAscending(acc);
    RecordsByIdKeys(acc);
  }

  lemma RecordsByIdAscending(acc: map<int, RawMessage>)
    requires forall k :: k in acc ==> acc[k].id == Some(k)
    ensures StrictlyAscendingIds(RecordsById(acc))
  {
    RecordsByIdIds(acc);
  }

  lemma RecordsByIdKeys(acc: map<int, RawMessage>)
    requires forall k :: k in acc ==> acc[k].id == Some(k)
    ensures IdSet(RecordsById(acc)) == acc.Keys
  {
    var ids := SortedElements(acc.Keys);
    var out := RecordsById(acc);
    RecordsByIdIds(acc);
    forall k | k in IdSet(out) ensures k in acc.Keys {
      var i :| 0 <= i < |out| && out[i].id.Some? && out[i].id.value == k;
      assert ids[i] == k;
    }
    forall k | k in acc.Keys ensures k in IdSet(out) {
      var i :| 0 <= i < |ids| && ids[i] == k;
      assert out[i].id == Some(k);
    }
  }

  lemma {:induction false} RecordsByIdSpec(rs: seq<RawMessage>)
    requires AllHaveIds(rs)
    ensures var out := RecordsById(Absorb(map[], rs));
      && StrictlyAscendingIds(out)
      && IdSet(out) == IdSet(rs)
      && forall i :: 0 <= i < |out| ==> LastWithId(rs, out[i].id.value) == Some(out[i])
  {
    var acc := Absorb(map[], rs);
    AbsorbKeys(rs);
    RecordsByIdSorted(acc);
    RecordsByIdEntries(acc);
    var ids := SortedElements(acc.Keys);
    var out := RecordsById(acc);
    forall i | 0 <= i < |out|
      ensures LastWithId(rs, out[i].id.value) == Some(out[i])
    {
      AbsorbSpec(map[], rs, ids[i]);
    }
  }

  /** A walk that stops returns what it gathered. */
  lemma StopReturnsGathered(last: Cursor, since: Option<int>)
    requires Gathered(last, since)
    ensures ReturnsGathered(Fetched(RecordsById(last.acc), last.client, last.trace, last.refreshes), since)
  {
    RecordsByIdSpec(AcceptedAll(last.trace, since));
  }

  lemma {:induction false} WalkReturnsGathered(fuel: nat, cur: Cursor, policy: RefreshPolicy, since: Option<int>,
                                               fetch: (Client, Request) -> Option<Page>, post: Client -> Option<string>)
    requires Gathered(cur, since)
    ensures ReturnsGathered(Walk(fuel, cur, policy, since, fetch, post), since)
    decreases fuel
  {
    if fuel > 0 {
      match StepOf(cur, policy, since, fetch, post)
      case Raise =>
      case Stop(last) =>
        StopReturnsGathered(last, since);
      case Continue(next) =>
        WalkReturnsGathered(fuel - 1, next, policy, since, fetch, post);
    }
  }

  lemma {:induction false} WalkRefreshesOnce(fuel: nat, cur: Cursor, since: Option<int>,
                                             fetch: (Client, Request) -> Option<Page>, post: Client -> Option<string>)
    requires cur.refreshes <= 1
    ensures var o := Walk(fuel, cur, OncePerWalk, since, fetch, post);
      o.Fetched? ==> o.refreshes <= 1
    decreases fuel
  {
    if fuel > 0 {
      var step := StepOf(cur, OncePerWalk, since, fetch, post);
      if step.Continue? {
        WalkRefreshesOnce(fuel - 1, step.next, since, fetch, post);
      }
    }
  }

  // ------------------------------------------------------------- the feed

  /** The request that follows the pages received so far: the first one
      carries no continuation, each later one the continuation the page
      before it returned. */
  function NextRequest(trace: seq<Page>): Request {
    Request(PageSize, PageOrder, if |trace| == 0 then None else trace[|trace| - 1].continuation)
  }

  /** A page after which the loop asks for another: non-empty, wholly
      fresh, and carrying a truthy continuation other than the one that
      was submitted for it. */
  predicate Continues(p: Page, prior: seq<Page>, since: Option<int>) {
    && p.messages != []
    && FreshRun(p.messages, since) == |p.messages|
    && TruthyStr(p.continuation)
    && p.continuation != NextRequest(prior).continuation
  }

  /** The pages are the feed's chain of answers for client `c`: each page
      answers the request that follows the pages before it, and each led
      on to another. */
  predicate Chain(c: Client, trace: seq<Page>, since: Option<int>, fetch: (Client, Request) -> Option<Page>)
    decreases |trace|
  {
    |trace| == 0 ||
      var prior := trace[..|trace| - 1];
      && Chain(c, prior, since, fetch)
      && fetch(c, NextRequest(prior)) == Some(trace[|trace| - 1])
      && Continues(trace[|trace| - 1], prior, since)
  }

  /** The pages of a finished walk: a chain of answers, then either a last
      answer that did not lead on, or a failed request. */
  predicate FollowsFeed(c: Client, trace: seq<Page>, since: Option<int>, fetch: (Client, Request) -> Option<Page>) {
    || (&& |trace| > 0
        && var prior := trace[..|trace| - 1];
        && Chain(c, prior, since, fetch)
        && fetch(c, NextRequest(prior)) == Some(trace[|trace| - 1])
        && !Continues(trace[|trace| - 1], prior, since))
    || (Chain(c, trace, since, fetch) && fetch(c, NextRequest(trace)).None?)
  }

  /** The loop's invariant against the feed: the pages so far are a chain
      of answers, the cursor submits the request that follows them, and
      the first page has not been received while still on page 0. */
  predicate Linked(cur: Cursor, since: Option<int>, fetch: (Client, Request) -> Option<Page>) {
    && Chain(cur.client, cur.trace, since, fetch)
    && RequestFor(cur) == NextRequest(cur.trace)
    && (cur.page == 0 ==> cur.trace == [])
  }

  lemma StartLinked(c: Client, since: Option<int>, fetch: (Client, Request) -> Option<Page>)
    ensures Linked(Start(c), since, fetch)
  {
  }

  /** A page that leads on keeps the cursor linked. */
  lemma LinkedAfterPage(cur: Cursor, p: Page, next: Cursor, since: Option<int>, fetch: (Client, Request) -> Option<Page>)
    requires Linked(cur, since, fetch) && fetch(cur.client, RequestFor(cur)) == Some(p)
    requires Continues(p, cur.trace, since)
    requires next.trace == cur.trace + [p] && next.client == cur.client
    requires next.cont == p.continuation && next.page == cur.page + 1
    ensures Linked(next, since, fetch)
  {
    assert next.trace[..|next.trace| - 1] == cur.trace;
  }

  /** A page that does not lead on ends a trace that follows the feed. */
  lemma FollowsAfterPage(cur: Cursor, p: Page, last: Cursor, since: Option<int>, fetch: (Client, Request) -> Option<Page>)
    requires Linked(cur, since, fetch) && fetch(cur.client, RequestFor(cur)) == Some(p)
    requires !Continues(p, cur.trace, since)
    requires last.trace == cur.trace + [p] && last.client == cur.client
    ensures FollowsFeed(last.client, last.trace, since, fetch)
  {
    assert last.trace[..|last.trace| - 1] == cur.trace;
  }

  /** A failed request ends a trace that follows the feed. */
  lemma FollowsAfterFailure(cur: Cursor, since: Option<int>, fetch: (Client, Request) -> Option<Page>)
    requires Linked(cur, since, fetch) && fetch(cur.client, RequestFor(cur)).None?
    ensures FollowsFeed(cur.client, cur.trace, since, fetch)
  {
  }

  /** One step keeps the cursor linked to the feed, and a step that stops
      leaves a trace that follows the feed. */
  lemma StepLinked(cur: Cursor, policy: RefreshPolicy, since: Option<int>,
                   fetch: (Client, Request) -> Option<Page>, post: Client -> Option<string>)
    requires Linked(cur, since, fetch)
    ensures StepOf(cur, policy, since, fetch, post).Continue? ==> Linked(StepOf(cur, policy, since, fetch, post).next, since, fetch)
    ensures StepOf(cur, policy, since, fetch, post).Stop? ==>
      var last := StepOf(cur, policy, since, fetch, post).last;
      FollowsFeed(last.client, last.trace, since, fetch)
  {
    var r := StepOf(cur, policy, since, fetch, post);
    match fetch(cur.client, RequestFor(cur))
    case None =>
      if r.Stop? {
        FollowsAfterFailure(cur, since, fetch);
      }
    case Some(p) =>
      StepReceived(cur, policy, since, fetch, post);
      if r.Continue? {
        LinkedAfterPage(cur, p, r.next, since, fetch);
      } else if r.Stop? {
        FollowsAfterPage(cur, p, r.last, since, fetch);
      }
  }

  /** A walk that returns has received exactly the feed's chain of answers. */
  lemma {:induction false} WalkFollowsFeed(fuel: nat, cur: Cursor, policy: RefreshPolicy, since: Option<int>,
                                           fetch: (Client, Request) -> Option<Page>, post: Client -> Option<string>)
    requires Linked(cur, since, fetch)
    ensures var o := Walk(fuel, cur, policy, since, fetch, post);
      o.Fetched? ==> FollowsFeed(o.client, o.trace, since, fetch)
    decreases fuel
  {
    if fuel > 0 {
      StepLinked(cur, policy, since, fetch, post);
      var step := StepOf(cur, policy, since, fetch, post);
      if step.Continue? {
        WalkFollowsFeed(fuel - 1, step.next, policy, since, fetch, post);
      }
    }
  }

  // ------------------------------------------------------------ the client

  /** The client after `n` successful refreshes of `c`; None when one of
      them fails. */
  function Refreshed(c: Client, n: nat, post: Client -> Option<string>): Option<Client> {
    if n == 0 then Some(c)
    else match Refreshed(c, n - 1, post)
      case None => None
      case Some(c') => Refresh(c', post)
  }

  /** `client` is `c` after `n` successful refreshes, and each of them
      answered a first request that had failed for the client of the time. */
  predicate RefreshedFrom(c: Client, client: Client, n: nat,
                          fetch: (Client, Request) -> Option<Page>, post: Client -> Option<string>) {
    && Refreshed(c, n, post) == Some(client)
    && forall k: nat :: k < n ==>
         Refreshed(c, k, post).Some? && fetch(Refreshed(c, k, post).value, NextRequest([])).None?
  }

  /** The loop's invariant against the caller's client: the cursor's client
      is the caller's after the refreshes made, and no continuation has
      been submitted while still on the first page. */
  predicate FromClient(cur: Cursor, c: Client, fetch: (Client, Request) -> Option<Page>, post: Client -> Option<string>) {
    && RefreshedFrom(c, cur.client, cur.refreshes, fetch, post)
    && (cur.page == 0 ==> cur.cont == None)
  }

  /** One step changes the client only by a refresh that answers a failed
      first request. */
  lemma StepFromClient(cur: Cursor, c: Client, policy: RefreshPolicy, since: Option<int>,
                       fetch: (Client, Request) -> Option<Page>, post: Client -> Option<string>)
    requires FromClient(cur, c, fetch, post)
    ensures var r := StepOf(cur, policy, since, fetch, post);
      && (r.Continue? ==> FromClient(r.next, c, fetch, post))
      && (r.Stop? ==> FromClient(r.last, c, fetch, post))
  {
    var r := StepOf(cur, policy, since, fetch, post);
    if fetch(cur.client, RequestFor(cur)).Some? {
      StepReceived(cur, policy, since, fetch, post);
    } else if r.Continue? {
      assert RequestFor(cur) == NextRequest([]);
      RefreshedFromStep(c, cur.client, cur.refreshes, r.next.client, fetch, post);
    }
  }

  /** A refresh that answers a failed first request extends the chain of
      refreshes by one. */
  lemma RefreshedFromStep(c: Client, client: Client, n: nat, client': Client,
                          fetch: (Client, Request) -> Option<Page>, post: Client -> Option<string>)
    requires RefreshedFrom(c, client, n, fetch, post)
    requires fetch(client, NextRequest([])).None? && Refresh(client, post) == Some(client')
    ensures RefreshedFrom(c, client', n + 1, fetch, post)
  {
    assert Refreshed(c, n + 1, post) == Some(client');
  }

  /** A walk that returns ends with the caller's client, refreshed once for
      each failed first request that a refresh answered. */
  lemma {:induction false} WalkFromClient(fuel: nat, cur: Cursor, c: Client, policy: RefreshPolicy, since: Option<int>,
                                          fetch: (Client, Request) -> Option<Page>, post: Client -> Option<string>)
    requires FromClient(cur, c, fetch, post)
    ensures var o := Walk(fuel, cur, policy, since, fetch, post);
      o.Fetched? ==> RefreshedFrom(c, o.client, o.refreshes, fetch, post)
    decreases fuel
  {
    if fuel > 0 {
      StepFromClient(cur, c, policy, since, fetch, post);
      match StepOf(cur, policy, since, fetch, post)
      case Raise =>
      case Stop(last) =>
      case Continue(next) =>
        WalkFromClient(fuel - 1, next, c, policy, since, fetch, post);
    }
  }

  // ------------------------------------------------------------ get_messages

  /** `get_messages(session, group_id, since_id)` as written: records newer
      than a truthy checkpoint, ascending by id, each the last copy
      received. */
  function GetMessages(c: Client, since: Option<int>, fetch: (Client, Request) -> Option<Page>,
                       post: Client -> Option<string>, fuel: nat): (o: Outcome)
    ensures ReturnsGathered(o, since)
    ensures o.Fetched? ==> FollowsFeed(o.client, o.trace, since, fetch)
    ensures o.Fetched? ==> RefreshedFrom(c, o.client, o.refreshes, fetch, post)
    ensures o.Fetched? && o.refreshes == 0 ==> o.client == c
  {
    WalkReturnsGathered(fuel, Start(c), WhileFirstPage, since, fetch, post);
    StartLinked(c, since, fetch);
    WalkFollowsFeed(fuel, Start(c), WhileFirstPage, since, fetch, post);
    WalkFromClient(fuel, Start(c), c, WhileFirstPage, since, fetch, post);
    Walk(fuel, Start(c), WhileFirstPage, since, fetch, post)
  }

  /** The corrected walk: a failed first page is answered by at most one
      refresh. Everything `GetMessages` promises holds here too. */
  function GetMessagesRefreshOnce(c: Client, since: Option<int>, fetch: (Client, Request) -> Option<Page>,
                                  post: Client -> Option<string>, fuel: nat): (o: Outcome)
    ensures ReturnsGathered(o, since)
    ensures o.Fetched? ==> FollowsFeed(o.client, o.trace, since, fetch)
    ensures o.Fetched? ==> o.refreshes <= 1
    ensures o.Fetched? ==> RefreshedFrom(c, o.client, o.refreshes, fetch, post)
    ensures o.Fetched? && o.refreshes == 0 ==> o.client == c
    ensures o.Fetched? && o.refreshes == 1 ==> fetch(c, NextRequest([])).None? && Refresh(c, post) == Some(o.client)
  {
    WalkReturnsGathered(fuel, Start(c), OncePerWalk, since, fetch, post);
    StartLinked(c, since, fetch);
    WalkFollowsFeed(fuel, Start(c), OncePerWalk, since, fetch, post);
    WalkFromClient(fuel, Start(c), c, OncePerWalk, since, fetch, post);
    WalkRefreshesOnce(fuel, Start(c), since, fetch, post);
    Walk(fuel, Start(c), OncePerWalk, since, fetch, post)
  }

  // ------------------------------------------------------ refresh loop

  /** As written, a first page that keeps failing while the refresh keeps
      succeeding is retried forever: no amount of fuel ends the walk. */
  lemma {:induction false} FirstPageRefreshLoop(fuel: nat, cur: Cursor, since: Option<int>,
                                                fetch: (Client, Request) -> Option<Page>, post: Client -> Option<string>)
    requires cur.page == 0 && |cur.client.cookies| > 0
    requires forall cl, rq :: fetch(cl, rq).None?
    requires forall cl :: TruthyStr(post(cl))
    ensures Walk(fuel, cur, WhileFirstPage, since, fetch, post) == OutOfFuel
    decreases fuel
  {
    if fuel > 0 {
      assert fetch(cur.client, RequestFor(cur)).None?;
      assert TruthyStr(post(cur.client));
      var next := cur.(client := Refresh(cur.client, post).value, refreshes := cur.refreshes + 1);
      assert StepOf(cur, WhileFirstPage, since, fetch, post) == Continue(next);
      FirstPageRefreshLoop(fuel - 1, next, since, fetch, post);
    }
  }

  lemma GetMessagesRefreshLoop(c: Client, since: Option<int>, fetch: (Client, Request) -> Option<Page>,
                               post: Client -> Option<string>, fuel: nat)
    requires |c.cookies| > 0
    requires forall cl, rq :: fetch(cl, rq).None?
    requires forall cl :: TruthyStr(post(cl))
    ensures GetMessages(c, since, fetch, post, fuel) == OutOfFuel
  {
    FirstPageRefreshLoop(fuel, Start(c), since, fetch, post);
  }

  /** Corrected: the same failing feed ends after one refresh and two
      requests, with nothing gathered. */
  lemma RefreshOnceEnds(c: Client, since: Option<int>, fetch: (Client, Request) -> Option<Page>,
                        post: Client -> Option<string>, fuel: nat)
    requires fuel >= 2
    requires forall cl, rq :: fetch(cl, rq).None?
    ensures var o := GetMessagesRefreshOnce(c, since, fetch, post, fuel);
      o.Fetched? && o.messages == [] && o.trace == [] && o.refreshes <= 1
  {
    var s := Start(c);
    assert fetch(s.client, RequestFor(s)).None?;
    match StepOf(s, OncePerWalk, since, fetch, post)
    case Stop(last) =>
      assert last == s;
      assert RecordsById(last.acc) == [];
    case Continue(next) =>
      assert next.refreshes == 1 && next.page == 0 && next.acc == map[] && next.trace == [];
      assert fetch(next.client, RequestFor(next)).None?;
      assert StepOf(next, OncePerWalk, since, fetch, post) == Stop(next);
      assert Walk(fuel - 1, next, OncePerWalk, since, fetch, post) == Fetched(RecordsById(next.acc), next.client, next.trace, next.refreshes);
      assert RecordsById(next.acc) == [];
  }

  // ---------------------------------------------------- a worked example

  /** A record with an id and nothing else. */
  function Rec(id: int): RawMessage {
    RawMessage(Some(id), None, None, None, None, None, None, None)
  }

  /** `n` records with consecutive ids counting down from `top`, newest
      first, as the timeline lists them. */
  function Countdown(top: int, n: nat): (rs: seq<RawMessage>)
    ensures |rs| == n && forall i :: 0 <= i < n ==> rs[i] == Rec(top - i)
  {
    seq(n, i => Rec(top - i))
  }

  lemma CountdownPrefix(top: int, n: nat, k: nat)
    requires k <= n
    ensures Countdown(top, n)[..k] == Countdown(top, k)
  {
  }

  lemma CountdownAppend(top: int, n: nat, m: nat)
    ensures Countdown(top, n) + Countdown(top - n, m) == Countdown(top, n + m)
  {
  }

  /** A countdown holds exactly the ids from `top - n + 1` to `top`. */
  lemma CountdownIds(top: int, n: nat)
    ensures forall x :: x in IdSet(Countdown(top, n)) <==> top - n < x <= top
  {
    var ms := Countdown(top, n);
    forall x | top - n < x <= top
      ensures x in IdSet(ms)
    {
      assert ms[top - x].id == Some(x);
    }
  }

  /** Against a truthy checkpoint at or below the newest id, a countdown
      page is fresh down to the record just above the checkpoint. */
  lemma FreshRunCountdown(top: int, n: nat, since: int)
    requires since != 0 && since <= top
    ensures FreshRun(Countdown(top, n), Some(since)) == if n <= top - since then n else top - since
  {
    var ms := Countdown(top, n);
    var r := FreshRun(ms, Some(since));
    assert r < n ==> !Fresh(ms[r], Some(since));
    assert top - since < r ==> Fresh(ms[top - since], Some(since));
  }

  /** Records strictly ascending by id whose ids are exactly those from
      `lo` up to but excluding `hi` list them, one id per position. */
  lemma {:induction false} AscendingInterval(rs: seq<RawMessage>, lo: int, hi: int)
    requires lo <= hi
    requires StrictlyAscendingIds(rs)
    requires forall x :: x in IdSet(rs) <==> lo <= x < hi
    ensures |rs| == hi - lo
    ensures forall i :: 0 <= i < |rs| ==> rs[i].id == Some(lo + i)
    decreases |rs|
  {
    if |rs| == 0 {
      assert lo !in IdSet(rs);
    } else {
      assert rs[0].id.value in IdSet(rs);
      assert lo in IdSet(rs);
      var j :| 0 <= j < |rs| && rs[j].id == Some(lo);
      assert rs[0].id.value <= rs[j].id.value;
      assert rs[0].id == Some(lo);
      var tail := rs[1..];
      forall x
        ensures x in IdSet(tail) <==> lo + 1 <= x < hi
      {
        if x in IdSet(tail) {
          var k :| 0 <= k < |tail| && tail[k].id == Some(x);
          assert rs[k + 1].id == Some(x);
          assert x in IdSet(rs);
          assert rs[0].id.value < rs[k + 1].id.value;
        }
        if lo + 1 <= x < hi {
          assert x in IdSet(rs);
          var k :| 0 <= k < |rs| && rs[k].id == Some(x);
          assert k > 0;
          assert tail[k - 1].id == Some(x);
        }
      }
      AscendingInterval(tail, lo + 1, hi);
    }
  }

  /** A step on a received answer, from a cursor that submits the request
      following its trace: it leads on exactly when the page continues the
      trace, and either way the page is recorded with the client kept. */
  lemma StepOnAnswer(cur: Cursor, policy: RefreshPolicy, since: Option<int>,
                     fetch: (Client, Request) -> Option<Page>, post: Client -> Option<string>, p: Page)
    requires fetch(cur.client, RequestFor(cur)) == Some(p) && RequestFor(cur) == NextRequest(cur.trace)
    ensures var r := StepOf(cur, policy, since, fetch, post);
      && (r.Continue? <==> Continues(p, cur.trace, since))
      && (r.Continue? ==> r.next.client == cur.client && r.next.trace == cur.trace + [p]
                          && RequestFor(r.next) == NextRequest(r.next.trace))
      && (r.Stop? ==> r.last.trace == cur.trace + [p])
      && (!r.Raise? <== FreshRun(p.messages, since) == |p.messages| || p.messages[FreshRun(p.messages, since)].id.Some?)
  {
    StepReceived(cur, policy, since, fetch, post);
    var r := StepOf(cur, policy, since, fetch, post);
    if r.Continue? {
      assert r.next.trace[..|r.next.trace| - 1] == cur.trace;
    }
  }

  /** A walk whose next answer does not continue its trace (and raises
      nothing) returns at once, with that page recorded last. */
  lemma WalkStopsOn(cur: Cursor, policy: RefreshPolicy, since: Option<int>,
                    fetch: (Client, Request) -> Option<Page>, post: Client -> Option<string>, fuel: nat, p: Page)
    requires fuel >= 1
    requires fetch(cur.client, RequestFor(cur)) == Some(p) && RequestFor(cur) == NextRequest(cur.trace)
    requires !Continues(p, cur.trace, since)
    requires FreshRun(p.messages, since) == |p.messages| || p.messages[FreshRun(p.messages, since)].id.Some?
    ensures var o := Walk(fuel, cur, policy, since, fetch, post);
      o.Fetched? && o.trace == cur.trace + [p]
  {
    StepOnAnswer(cur, policy, since, fetch, post, p);
    var r := StepOf(cur, policy, since, fetch, post);
    assert r.Stop?;
    assert Walk(fuel, cur, policy, since, fetch, post)
        == Fetched(RecordsById(r.last.acc), r.last.client, r.last.trace, r.last.refreshes);
  }

  /** A walk whose first answer leads on and whose second answer, to that
      page's continuation, does not (and raises nothing) returns after
      receiving exactly those two pages. */
  lemma TwoPageWalk(c: Client, since: Option<int>, fetch: (Client, Request) -> Option<Page>,
                    post: Client -> Option<string>, fuel: nat, p1: Page, p2: Page)
    requires fuel >= 2
    requires fetch(c, Request(PageSize, PageOrder, None)) == Some(p1) && Continues(p1, [], since)
    requires fetch(c, Request(PageSize, PageOrder, p1.continuation)) == Some(p2) && !Continues(p2, [p1], since)
    requires FreshRun(p2.messages, since) == |p2.messages| || p2.messages[FreshRun(p2.messages, since)].id.Some?
    ensures var o := GetMessages(c, since, fetch, post, fuel);
      o.Fetched? && o.trace == [p1, p2]
  {
    var s0 := Start(c);
    StepOnAnswer(s0, WhileFirstPage, since, fetch, post, p1);
    var s1 := StepOf(s0, WhileFirstPage, since, fetch, post).next;
    assert Walk(fuel, s0, WhileFirstPage, since, fetch, post) == Walk(fuel - 1, s1, WhileFirstPage, since, fetch, post);
    WalkStopsOn(s1, WhileFirstPage, since, fetch, post, fuel - 1, p2);
  }

  /** A feed of two pages, whatever the token: ids 50 down to 41 with
      continuation "c1", then, for "c1", ids 40 down to 31 with
      continuation "c2"; any other continuation is refused. */
  function ExampleFeed(c: Client, rq: Request): Option<Page> {
    match rq.continuation
    case None => Some(Page(Countdown(50, 10), Some("c1")))
    case Some(k) => if k == "c1" then Some(Page(Countdown(40, 10), Some("c2"))) else None
  }

  /** Against the example feed, the walk from checkpoint 35 receives both
      pages and stops on the second, which reaches the checkpoint. */
  lemma ExampleTrace(c: Client, post: Client -> Option<string>, fuel: nat)
    requires fuel >= 2
    ensures var o := GetMessages(c, Some(35), ExampleFeed, post, fuel);
      o.Fetched? && o.trace == [Page(Countdown(50, 10), Some("c1")), Page(Countdown(40, 10), Some("c2"))]
  {
    var p1 := Page(Countdown(50, 10), Some("c1"));
    var p2 := Page(Countdown(40, 10), Some("c2"));
    FreshRunCountdown(50, 10, 35);
    FreshRunCountdown(40, 10, 35);
    assert p2.messages[5].id.Some?;
    TwoPageWalk(c, Some(35), ExampleFeed, post, fuel, p1, p2);
  }

  /** The records taken from the example's two pages: the whole first
      page, then the second down to 36. */
  lemma ExampleTaken()
    ensures AcceptedAll([Page(Countdown(50, 10), Some("c1")), Page(Countdown(40, 10), Some("c2"))], Some(35))
         == Countdown(50, 15)
  {
    var t := [Page(Countdown(50, 10), Some("c1")), Page(Countdown(40, 10), Some("c2"))];
    FreshRunCountdown(50, 10, 35);
    FreshRunCountdown(40, 10, 35);
    CountdownPrefix(50, 10, 10);
    CountdownPrefix(40, 10, 5);
    assert t[..1] == [t[0]] && t[..1][..0] == [];
    assert AcceptedAll(t[..1], Some(35)) == Countdown(50, 10);
    CountdownAppend(50, 10, 5);
  }

  /** The example walk returns exactly the records 36 to 50, ascending:
      the whole first page and the second page above the checkpoint. */
  lemma ExampleWalk(c: Client, post: Client -> Option<string>, fuel: nat)
    requires fuel >= 2
    ensures var o := GetMessages(c, Some(35), ExampleFeed, post, fuel);
      && o.Fetched? && |o.messages| == 15
      && forall i :: 0 <= i < 15 ==> o.messages[i] == Rec(36 + i)
  {
    var o := GetMessages(c, Some(35), ExampleFeed, post, fuel);
    ExampleTrace(c, post, fuel);
    ExampleTaken();
    ExampleReturned(o);
  }

  /** Any outcome that returns what it gathered, from pages whose taken
      records are 50 down to 36, holds exactly the records 36 to 50 in
      ascending order. */
  lemma ExampleReturned(o: Outcome)
    requires o.Fetched? && ReturnsGathered(o, Some(35))
    requires AcceptedAll(o.trace, Some(35)) == Countdown(50, 15)
    ensures |o.messages| == 15 && forall i :: 0 <= i < 15 ==> o.messages[i] == Rec(36 + i)
  {
    var taken := Countdown(50, 15);
    CountdownIds(50, 15);
    AscendingInterval(o.messages, 36, 51);
    forall i | 0 <= i < 15
      ensures o.messages[i] == Rec(36 + i)
    {
      assert LastWithId(taken, 36 + i) == Some(o.messages[i]);
    }
  }
}

=== FILE: strings.dfy ===
/** String helpers with the meaning Python gives them: `str.isspace`,
    `str.strip`, `str.replace` of one character, `str.lower` on ASCII,
    `str.split(sep)[-1]`, the `<` order on `str`, and `str(int)`. */
module Strings {

  /** Python's `str.isspace` for one code point (the characters `str.strip()`
      removes when called without arguments). */
  predicate IsSpace(c: char) {
    var n := c as int;
    || (0x09 <= n <= 0x0D) || (0x1C <= n <= 0x20)
    || n == 0x85 || n == 0xA0 || n == 0x1680
    || (0x2000 <= n <= 0x200A)
    || n == 0x2028 || n == 0x2029 || n == 0x202F || n == 0x205F || n == 0x3000
  }

  /** Number of leading whitespace characters. */
  function StripStart(s: string): (i: nat)
    ensures i <= |s|
    ensures forall k :: 0 <= k < i ==> IsSpace(s[k])
    ensures i < |s| ==> !IsSpace(s[i])
  {
    if |s| == 0 || !IsSpace(s[0]) then 0 else 1 + StripStart(s[1..])
  }

  /** Length of `s` once trailing whitespace is dropped. */
  function StripEnd(s: string): (j: nat)
    ensures j <= |s|
    ensures forall k :: j <= k < |s| ==> IsSpace(s[k])
    ensures j > 0 ==> !IsSpace(s[j - 1])
  {
    if |s| == 0 || !IsSpace(s[|s| - 1]) then |s| else StripEnd(s[..|s| - 1])
  }

  /** `s.strip()`: the slice of `s` left after removing whitespace at both
      ends; nothing inside the slice is touched. */
  function Strip(s: string): (r: string)
    ensures var i := StripStart(s);
      && i + |r| <= |s|
      && r == s[i..i + |r|]
      && (forall k :: 0 <= k < i ==> IsSpace(s[k]))
      && (forall k :: i + |r| <= k < |s| ==> IsSpace(s[k]))
    ensures r == [] || (!IsSpace(r[0]) && !IsSpace(r[|r| - 1]))
  {
    var i := StripStart(s);
    var t := s[i..];
    t[..StripEnd(t)]
  }

  /** Stripping a string that neither starts nor ends with whitespace
      changes nothing. */
  lemma StripNoop(s: string)
    requires s == [] || (!IsSpace(s[0]) && !IsSpace(s[|s| - 1]))
    ensures Strip(s) == s
  {
  }

  /** `s.replace(a, b)` for single characters `a` and `b`. */
  function ReplaceChar(s: string, a: char, b: char): (r: string)
    ensures |r| == |s|
    ensures forall k :: 0 <= k < |s| ==> r[k] == (if s[k] == a then b else s[k])
  {
    seq(|s|, k requires 0 <= k < |s| => if s[k] == a then b else s[k])
  }

  /** `c.lower()` restricted to ASCII letters; every other character is
      left as it is. */
  function LowerChar(c: char): char {
    if 'A' <= c <= 'Z' then (c as int + 32) as char else c
  }

  /** `s.lower()` on the ASCII range. */
  function AsciiLower(s: string): (r: string)
    ensures |r| == |s|
    ensures forall k :: 0 <= k < |s| ==> r[k] == LowerChar(s[k])
  {
    seq(|s|, k requires 0 <= k < |s| => LowerChar(s[k]))
  }

  /** The text before the first character of `stops` (all of `s` when none
      occurs): what `s.split(c, 1)[0]` keeps, for every `c` in `stops`. */
  function Before(s: string, stops: set<char>): (r: string)
    ensures |r| <= |s| && r == s[..|r|]
    ensures forall k :: 0 <= k < |r| ==> r[k] !in stops
    ensures |r| < |s| ==> s[|r|] in stops
  {
    if |s| == 0 || s[0] in stops then [] else [s[0]] + Before(s[1..], stops)
  }

  /** `s.split(c)[-1]`: the text after the last `c` (all of `s` when `c`
      does not occur). */
  function AfterLast(s: string, c: char): (r: string)
    ensures |r| <= |s| && r == s[|s| - |r|..]
    ensures c !in r
    ensures |r| < |s| ==> s[|s| - |r| - 1] == c
  {
    if |s| == 0 then []
    else if s[|s| - 1] == c then []
    else AfterLast(s[..|s| - 1], c) + [s[|s| - 1]]
  }

  /** Python's `a <= b` on `str`: lexicographic by code point, a proper
      prefix sorting first. */
  predicate LexLe(a: string, b: string)
    decreases |a|
  {
    |a| == 0 || (|b| > 0 && (a[0] < b[0] || (a[0] == b[0] && LexLe(a[1..], b[1..]))))
  }

  lemma LexLeRefl(a: string)
    ensures LexLe(a, a)
  {
  }

  lemma LexLeTotal(a: string, b: string)
    ensures LexLe(a, b) || LexLe(b, a)
  {
  }

  lemma LexLeAntisym(a: string, b: string)
    ensures LexLe(a, b) && LexLe(b, a) ==> a == b
  {
    if |a| > 0 && |b| > 0 && LexLe(a, b) && LexLe(b, a) {
      LexLeAntisym(a[1..], b[1..]);
      assert a == [a[0]] + a[1..];
      assert b == [b[0]] + b[1..];
    }
  }

  lemma LexLeTrans(a: string, b: string, c: string)
    ensures LexLe(a, b) && LexLe(b, c) ==> LexLe(a, c)
  {
    if |a| > 0 && |b| > 0 && |c| > 0 {
      LexLeTrans(a[1..], b[1..], c[1..]);
    }
  }

  predicate IsDigit(c: char) {
    '0' <= c <= '9'
  }

  function DigitChar(d: nat): (c: char)
    requires d < 10
    ensures IsDigit(c)
  {
    (48 + d) as char
  }

  function DigitValue(c: char): (d: nat)
    requires IsDigit(c)
    ensures d < 10 && DigitChar(d) == c
  {
    c as int - 48
  }

  /** `str(n)` for a non-negative integer: decimal digits, most significant
      first. */
  function NatToDecimal(n: nat): (r: string)
    ensures |r| >= 1
    ensures forall k :: 0 <= k < |r| ==> IsDigit(r[k])
    decreases n
  {
    if n < 10 then [DigitChar(n)] else NatToDecimal(n / 10) + [DigitChar(n % 10)]
  }

  /** Reads a string of decimal digits back as a number. */
  function ParseNat(s: string): nat
    requires forall k :: 0 <= k < |s| ==> IsDigit(s[k])
  {
    if |s| == 0 then 0 else ParseNat(s[..|s| - 1]) * 10 + DigitValue(s[|s| - 1])
  }

  lemma {:induction false} ParseNatToDecimal(n: nat)
    ensures ParseNat(NatToDecimal(n)) == n
    decreases n
  {
    if n >= 10 {
      var r := NatToDecimal(n);
      assert r[..|r| - 1] == NatToDecimal(n / 10);
      ParseNatToDecimal(n / 10);
    }
  }

  /** `str(n)` for any integer: a minus sign before the digits of `-n` when
      `n` is negative. */
  function IntToDecimal(n: int): (r: string)
    ensures |r| >= 1
    ensures forall k :: 0 <= k < |r| ==> IsDigit(r[k]) || (k == 0 && r[k] == '-')
  {
    if n < 0 then "-" + NatToDecimal(-n) else NatToDecimal(n)
  }

  /** Reads back what `IntToDecimal` writes. */
  function ParseInt(s: string): int
    requires forall k :: 0 <= k < |s| ==> IsDigit(s[k]) || (k == 0 && s[k] == '-')
  {
    if |s| > 0 && s[0] == '-' then 0 - ParseNat(s[1..]) else ParseNat(s)
  }

  /** Round trip: the decimal rendering of an integer reads back as that
      integer, so distinct ids never share a file name or a state key. */
  lemma {:induction false} ParseIntToDecimal(n: int)
    ensures ParseInt(IntToDecimal(n)) == n
  {
    if n < 0 {
      var r := IntToDecimal(n);
      assert r[1..] == NatToDecimal(-n);
      ParseNatToDecimal(-n);
    } else {
      ParseNatToDecimal(n);
    }
  }

  lemma IntToDecimalInjective(a: int, b: int)
    ensures IntToDecimal(a) == IntToDecimal(b) ==> a == b
  {
    ParseIntToDecimal(a);
    ParseIntToDecimal(b);
  }

  /** `sep.join(parts)`. */
  function Join(parts: seq<string>, sep: string): string {
    if |parts| == 0 then ""
    else if |parts| == 1 then parts[0]
    else parts[0] + sep + Join(parts[1..], sep)
  }
}

=== FILE: utils.dfy ===
/** The naming and normalisation helpers of `src/pymsg/utils.py`: directory
    name sanitising, media file extension resolution from a URL, and the
    mapping of a raw feed record onto the canonical message shape. */
module Utils {
  import opened Base
  import opened Strings

  /** The canonical message kinds. `Other` only arises for a persisted
      record whose stored type is none of the four; normalisation never
      produces it. */
  datatype MsgType = Text | Picture | Video | Voice | Other(name: string)
  {
    /** The type's directory / JSON name. */
    function Name(): string {
      match this
      case Text => "text"
      case Picture => "picture"
      case Video => "video"
      case Voice => "voice"
      case Other(n) => n
    }
  }

  /** A record of the timeline feed: only the keys the synchroniser reads.
      A `None` field is a key missing from the JSON object. */
  datatype RawMessage = RawMessage(
    id: Option<int>,
    memberId: Option<int>,
    rawType: Option<string>,
    publishedAt: Option<string>,
    text: Option<string>,
    isFavorite: Option<bool>,
    file: Option<string>,
    thumbnail: Option<string>)

  /** A message in the exported `messages.json`. */
  datatype Message = Message(
    id: int,
    timestamp: Option<string>,
    msgType: MsgType,
    isFavorite: bool,
    content: Option<string>,
    mediaFile: Option<string>)

  /** What normalisation returns: the message, plus the raw type kept
      aside (`_raw_type`) for extension resolution. */
  datatype Normalized = Normalized(msg: Message, rawType: Option<string>)

  // ---------------------------------------------------------------- names

  /** `name.replace(' ', '_').replace('/', '_').strip()`. */
  function SanitizeName(name: string): (r: string)
    ensures ' ' !in r && '/' !in r
    ensures |r| <= |name|
    ensures r == [] || (!IsSpace(r[0]) && !IsSpace(r[|r| - 1]))
    ensures var i := StripStart(ReplaceChar(ReplaceChar(name, ' ', '_'), '/', '_'));
      && i + |r| <= |name|
      && (forall k :: 0 <= k < |r| ==>
            r[k] == (if name[i + k] == ' ' || name[i + k] == '/' then '_' else name[i + k]))
      && (forall k :: 0 <= k < i || i + |r| <= k < |name| ==> IsSpace(name[k]) && name[k] != ' ')
  {
    var t := ReplaceChar(ReplaceChar(name, ' ', '_'), '/', '_');
    SanitizeSpec(name, t);
    Strip(t)
  }

  lemma ReplaceTwice(name: string, t: string)
    requires t == ReplaceChar(ReplaceChar(name, ' ', '_'), '/', '_')
    ensures |t| == |name| && ' ' !in t && '/' !in t
    ensures forall k :: 0 <= k < |t| ==> t[k] == (if name[k] == ' ' || name[k] == '/' then '_' else name[k])
  {
  }

  lemma SanitizeSpec(name: string, t: string)
    requires t == ReplaceChar(ReplaceChar(name, ' ', '_'), '/', '_')
    ensures var r := Strip(t);
      && ' ' !in r && '/' !in r
      && |r| <= |name|
      && var i := StripStart(t);
      && i + |r| <= |name|
      && (forall k :: 0 <= k < |r| ==>
            r[k] == (if name[i + k] == ' ' || name[i + k] == '/' then '_' else name[i + k]))
      && (forall k :: 0 <= k < i || i + |r| <= k < |name| ==> IsSpace(name[k]) && name[k] != ' ')
  {
    var r := Strip(t);
    var i := StripStart(t);
    ReplaceTwice(name, t);
    forall k | 0 <= k < |r|
      ensures r[k] == (if name[i + k] == ' ' || name[i + k] == '/' then '_' else name[i + k])
    {
      assert r[k] == t[i + k];
    }
    forall k | 0 <= k < i || i + |r| <= k < |name|
      ensures IsSpace(name[k]) && name[k] != ' '
    {
      assert IsSpace(t[k]);
    }
  }

  /** Sanitising is idempotent: a sanitised name is its own sanitised form. */
  lemma {:induction false} SanitizeNameIdempotent(name: string)
    ensures SanitizeName(SanitizeName(name)) == SanitizeName(name)
  {
    var s := SanitizeName(name);
    var t := ReplaceChar(ReplaceChar(s, ' ', '_'), '/', '_');
    assert t == s;
    StripNoop(s);
  }

  // ----------------------------------------------------------- extensions

  /** The extensions accepted verbatim from a URL. */
  const KnownExtensions: seq<string> :=
    ["jpg", "jpeg", "png", "gif", "webp", "m4a", "mp3", "wav", "mp4", "mov", "webm"]

  /** `MEDIA_EXTENSIONS.get(t, 'bin')`: the default extension per raw type. */
  function DefaultExtension(t: Option<string>): (r: string)
    ensures t == Some("image") || t == Some("picture") ==> r == "jpg"
    ensures t == Some("voice") ==> r == "m4a"
    ensures t == Some("movie") || t == Some("video") ==> r == "mp4"
    ensures t !in {Some("image"), Some("picture"), Some("voice"), Some("movie"), Some("video")} ==> r == "bin"
  {
    match t
    case Some("image") => "jpg"
    case Some("picture") => "jpg"
    case Some("voice") => "m4a"
    case Some("movie") => "mp4"
    case Some("video") => "mp4"
    case _ => "bin"
  }

  predicate IsAsciiLetter(c: char) {
    ('a' <= c <= 'z') || ('A' <= c <= 'Z')
  }

  /** Characters allowed in a URL scheme. */
  predicate IsSchemeChar(c: char) {
    IsAsciiLetter(c) || IsDigit(c) || c == '+' || c == '-' || c == '.'
  }

  /** The text before index `i` is a URL scheme: non-empty, starting with
      a letter, holding only scheme characters. */
  predicate IsScheme(url: string, i: nat)
    requires i <= |url|
  {
    i > 0 && IsAsciiLetter(url[0]) && forall k :: 0 <= k < i ==> IsSchemeChar(url[k])
  }

  /** The URL with a leading `scheme:` removed, the scheme being the text
      before the first `:`. */
  function DropScheme(url: string): (r: string)
    ensures |r| <= |url| && r == url[|url| - |r|..]
  {
    var i := |Before(url, {':'})|;
    if i < |url| && IsScheme(url, i) then url[i + 1..] else url
  }

  /** The text after a leading `//host` authority, which ends at the first
      `/`, `?` or `#`; text without a leading `//` is kept whole. */
  function DropAuthority(rest: string): (r: string)
    ensures |r| <= |rest| && r == rest[|rest| - |r|..]
  {
    if |rest| >= 2 && rest[..2] == "//"
    then rest[2 + |Before(rest[2..], {'/', '?', '#'})|..]
    else rest
  }

  /** The path component of a URL: after the scheme and a `//host`
      authority, before the query (`?`) or fragment (`#`). */
  function UrlPath(url: string): (path: string)
    ensures '?' !in path && '#' !in path
    ensures |path| <= |url|
  {
    Before(DropAuthority(DropScheme(url)), {'?', '#'})
  }

  /** The authority (`netloc`) of a URL: after the scheme, the text
      following a leading `//` up to the first `/`, `?` or `#`; None when
      there is no `//`. */
  function Netloc(url: string): (n: Option<string>)
    ensures n.Some? ==> '/' !in n.value && '?' !in n.value && '#' !in n.value
  {
    Authority(DropScheme(url))
  }

  /** The authority at the head of the text after the scheme. */
  function Authority(rest: string): Option<string> {
    if |rest| >= 2 && rest[..2] == "//" then Some(Before(rest[2..], {'/', '?', '#'})) else None
  }

  /** The characters whose NFKC form holds one of `/ ? # @ :` (Unicode
      15.0): the fullwidth and small forms of those five, their vertical
      presentation forms, and compounds such as U+2100 (`a/c`) and U+2047
      (`??`). No other string gains one of the five under NFKC, since none
      of them is part of a canonical composition. */
  const NfkcSeparators: set<char> := {
    '\U{2047}', '\U{2048}', '\U{2049}', '\U{2100}', '\U{2101}', '\U{2105}', '\U{2106}',
    '\U{2A74}', '\U{FE13}', '\U{FE16}', '\U{FE55}', '\U{FE56}', '\U{FE5F}', '\U{FE6B}',
    '\U{FF03}', '\U{FF0F}', '\U{FF1A}', '\U{FF1F}', '\U{FF20}'
  }

  /** The authorities `urlsplit` rejects with ValueError: one square bracket
      without the other ("Invalid IPv6 URL"), or a character whose NFKC form
      holds `/`, `?`, `#`, `@` or `:` (the normalisation check on the
      authority). */
  predicate NetlocRejected(n: string) {
    || (('[' in n) != (']' in n))
    || exists i :: 0 <= i < |n| && n[i] in NfkcSeparators
  }

  /** Whether `urlparse(url)` raises. */
  predicate UrlParseFails(url: string) {
    Netloc(url).Some? && NetlocRejected(Netloc(url).value)
  }

  /** The extension chosen for a URL path: the lower-cased text after its
      last `.` when that is a known extension, otherwise the type default. */
  function PathExtension(path: string, msgType: Option<string>): (r: string)
    ensures r in KnownExtensions || r == "bin"
    ensures '.' !in path ==> r == DefaultExtension(msgType)
    ensures '.' in path && AsciiLower(AfterLast(path, '.')) in KnownExtensions ==> r == AsciiLower(AfterLast(path, '.'))
    ensures '.' in path && AsciiLower(AfterLast(path, '.')) !in KnownExtensions ==> r == DefaultExtension(msgType)
    ensures r != DefaultExtension(msgType) ==> '.' in path && r == AsciiLower(AfterLast(path, '.'))
  {
    if '.' in path then
      var ext := AsciiLower(AfterLast(path, '.'));
      if ext in KnownExtensions then ext else DefaultExtension(msgType)
    else DefaultExtension(msgType)
  }

  /** `get_media_extension(url, msg_type)`: the extension of the URL's path
      when the URL is present and non-empty, otherwise the type default;
      None when `urlparse` raises. */
  function GetMediaExtension(url: Option<string>, msgType: Option<string>): (r: Option<string>)
    ensures r.None? <==> TruthyStr(url) && UrlParseFails(url.value)
    ensures r.Some? ==> r.value in KnownExtensions || r.value == "bin"
    ensures !TruthyStr(url) ==> r == Some(DefaultExtension(msgType))
    ensures r.Some? && TruthyStr(url) && '.' !in UrlPath(url.value) ==> r.value == DefaultExtension(msgType)
    ensures r.Some? && TruthyStr(url) && '.' in UrlPath(url.value) ==>
      var ext := AsciiLower(AfterLast(UrlPath(url.value), '.'));
      r.value == if ext in KnownExtensions then ext else DefaultExtension(msgType)
    ensures r.Some? && r.value != DefaultExtension(msgType) ==>
      TruthyStr(url) && '.' in UrlPath(url.value) && r.value == AsciiLower(AfterLast(UrlPath(url.value), '.'))
  {
    if !TruthyStr(url) then Some(DefaultExtension(msgType))
    else if UrlParseFails(url.value) then None
    else Some(PathExtension(UrlPath(url.value), msgType))
  }

  lemma {:induction false} AfterLastOfDotted(p: string, e: string)
    requires '.' !in e
    ensures AfterLast(p + "." + e, '.') == e
    decreases |e|
  {
    var s := p + "." + e;
    if |e| == 0 {
      assert s[|s| - 1] == '.';
    } else {
      var e' := e[..|e| - 1];
      assert s[..|s| - 1] == p + "." + e';
      AfterLastOfDotted(p, e');
      assert e == e' + [e[|e| - 1]];
    }
  }

  lemma PathExtensionDotted(p: string, e: string, t: Option<string>)
    requires '.' !in e && AsciiLower(e) in KnownExtensions
    ensures PathExtension(p + "." + e, t) == AsciiLower(e)
  {
    var path := p + "." + e;
    AfterLastOfDotted(p, e);
    assert path[|p|] == '.';
    assert '.' in path;
  }

  /** A URL whose path ends in `.e`, with `e` a known extension up to
      case, resolves to `e` lower-cased whatever the message type. */
  lemma {:induction false} ExtensionFromPath(url: string, p: string, e: string, t: Option<string>)
    requires url != "" && !UrlParseFails(url) && UrlPath(url) == p + "." + e
    requires '.' !in e && AsciiLower(e) in KnownExtensions
    ensures GetMediaExtension(Some(url), t) == Some(AsciiLower(e))
  {
    PathExtensionDotted(p, e, t);
  }

  /** When `a` holds no stop character, `Before` reads through it. */
  lemma {:induction false} BeforeAppendFree(a: string, b: string, stops: set<char>)
    requires forall k :: 0 <= k < |a| ==> a[k] !in stops
    ensures Before(a + b, stops) == a + Before(b, stops)
  {
    if |a| == 0 {
      assert a + b == b;
    } else {
      assert (a + b)[0] == a[0];
      assert (a + b)[1..] == a[1..] + b;
      BeforeAppendFree(a[1..], b, stops);
      assert a == [a[0]] + a[1..];
    }
  }

  /** When `a` holds a stop character, `Before` never reaches `b`. */
  lemma {:induction false} BeforeAppendHit(a: string, b: string, stops: set<char>, k: nat)
    requires k < |a| && a[k] in stops
    ensures Before(a + b, stops) == Before(a, stops)
  {
    assert (a + b)[0] == a[0];
    if k > 0 && a[0] !in stops {
      assert (a + b)[1..] == a[1..] + b;
      assert a[1..][k - 1] == a[k];
      BeforeAppendHit(a[1..], b, stops, k - 1);
    }
  }

  lemma BeforeAppend(a: string, b: string, stops: set<char>)
    ensures (exists k :: 0 <= k < |a| && a[k] in stops) ==> Before(a + b, stops) == Before(a, stops)
    ensures (forall k :: 0 <= k < |a| ==> a[k] !in stops) ==> Before(a + b, stops) == a + Before(b, stops)
  {
    if k :| 0 <= k < |a| && a[k] in stops {
      BeforeAppendHit(a, b, stops, k);
    } else {
      BeforeAppendFree(a, b, stops);
    }
  }

  /** A suffix of a text avoids every character the text avoids. */
  lemma SuffixAvoids(u: string, r: string, c: char)
    requires |r| <= |u| && r == u[|u| - |r|..] && c !in u
    ensures c !in r
  {
    forall k | 0 <= k < |r| ensures r[k] != c {
      assert r[k] == u[|u| - |r| + k];
    }
  }

  /** Whether the first `i` characters form a scheme depends on those
      characters alone. */
  lemma IsSchemeOfPrefix(s: string, u: string, i: nat)
    requires i <= |u| <= |s| && s[..|u|] == u
    ensures IsScheme(s, i) == IsScheme(u, i)
  {
    assert forall k :: 0 <= k < i ==> s[k] == s[..|u|][k];
  }

  lemma BeforeColonAppend(u: string, tail: string)
    requires |Before(u, {':'})| < |u|
    ensures |Before(u + tail, {':'})| == |Before(u, {':'})|
  {
    BeforeAppendHit(u, tail, {':'}, |Before(u, {':'})|);
  }

  lemma IsSchemeAppend(u: string, tail: string, i: nat)
    requires i < |u|
    ensures IsScheme(u + tail, i) == IsScheme(u, i)
  {
    assert (u + tail)[..|u|] == u;
    IsSchemeOfPrefix(u + tail, u, i);
  }

  lemma SliceAppend(u: string, tail: string, i: nat)
    requires i < |u|
    ensures (u + tail)[i + 1..] == u[i + 1..] + tail
  {
  }

  /** Text appended after a URL whose first `:` it already holds does
      not move the scheme boundary. */
  lemma DropSchemeAppend(u: string, tail: string)
    requires |Before(u, {':'})| < |u|
    ensures DropScheme(u + tail) == DropScheme(u) + tail
  {
    var i := |Before(u, {':'})|;
    BeforeColonAppend(u, tail);
    IsSchemeAppend(u, tail, i);
    if IsScheme(u, i) {
      SliceAppend(u, tail, i);
      assert DropScheme(u + tail) == (u + tail)[i + 1..];
    } else {
      assert DropScheme(u + tail) == u + tail;
    }
  }

  lemma BeforeWhole(u: string, stops: set<char>)
    requires |Before(u, stops)| == |u|
    ensures forall k :: 0 <= k < |u| ==> u[k] !in stops
  {
    assert Before(u, stops) == u;
  }

  /** A `?` before index `j` keeps the text before `j` from being a
      scheme. */
  lemma QueryMarkNotScheme(s: string, j: nat, p: nat)
    requires p < j <= |s| && s[p] == '?'
    ensures !IsScheme(s, j)
  {
    assert !IsSchemeChar(s[p]);
  }

  lemma DropSchemeQueryNoColon(u: string, tail: string)
    requires |Before(u, {':'})| == |u|
    requires |tail| > 0 && tail[0] == '?'
    ensures DropScheme(u + tail) == u + tail
    ensures DropScheme(u) == u
  {
    var s := u + tail;
    BeforeWhole(u, {':'});
    BeforeAppendFree(u, tail, {':'});
    assert |Before(tail, {':'})| > 0;
    var j := |Before(s, {':'})|;
    assert s[|u|] == '?';
    if j < |s| {
      QueryMarkNotScheme(s, j, |u|);
    }
  }

  /** A query appended to a URL does not move the scheme boundary. */
  lemma DropSchemeQuery(u: string, tail: string)
    requires |tail| > 0 && tail[0] == '?'
    ensures DropScheme(u + tail) == DropScheme(u) + tail
  {
    if |Before(u, {':'})| < |u| {
      DropSchemeAppend(u, tail);
    } else {
      DropSchemeQueryNoColon(u, tail);
    }
  }

  lemma DropSchemeOf(scheme: string, rest: string)
    requires scheme != "" && IsAsciiLetter(scheme[0])
    requires forall k :: 0 <= k < |scheme| ==> IsSchemeChar(scheme[k])
    ensures DropScheme(scheme + ":" + rest) == rest
  {
    var url := scheme + ":" + rest;
    assert url == scheme + (":" + rest);
    BeforeAppend(scheme, ":" + rest, {':'});
    assert Before(":" + rest, {':'}) == [];
    var i := |scheme|;
    assert Before(url, {':'}) == scheme;
    assert IsScheme(url, i) by {
      assert forall k :: 0 <= k < i ==> url[k] == scheme[k];
    }
    assert url[i + 1..] == rest;
  }

  lemma BeforeHostPath(host: string, path: string)
    requires forall k :: 0 <= k < |host| ==> host[k] !in {'/', '?', '#'}
    requires path == [] || path[0] == '/'
    ensures Before(host + path, {'/', '?', '#'}) == host
  {
    var stops := {'/', '?', '#'};
    BeforeAppend(host, path, stops);
    if path == [] {
      assert host + path == host;
      BeforeAppend(host, [], stops);
      assert host + [] == host;
    } else {
      assert Before(path, stops) == [];
    }
  }

  lemma DropAuthorityOf(host: string, path: string)
    requires forall k :: 0 <= k < |host| ==> host[k] !in {'/', '?', '#'}
    requires path == [] || path[0] == '/'
    ensures DropAuthority("//" + host + path) == path
  {
    BeforeHostPath(host, path);
    var rest := "//" + host + path;
    assert rest[..2] == "//";
    assert rest[2..] == host + path;
    assert rest[2 + |host|..] == path;
  }

  /** The simplified parse this model relies on: in
      `scheme://host/path`, the path is everything after the host when it
      carries no query or fragment. */
  lemma {:induction false} UrlPathOfAbsoluteUrl(scheme: string, host: string, path: string)
    requires scheme != "" && IsAsciiLetter(scheme[0])
    requires forall k :: 0 <= k < |scheme| ==> IsSchemeChar(scheme[k])
    requires forall k :: 0 <= k < |host| ==> host[k] !in {'/', '?', '#'}
    requires path == [] || path[0] == '/'
    requires '?' !in path && '#' !in path
    ensures UrlPath(scheme + "://" + host + path) == path
  {
    UrlShape(scheme, host, path);
    DropSchemeOf(scheme, "//" + host + path);
    DropAuthorityOf(host, path);
    BeforeNoStop(path, {'?', '#'});
  }

  /** In `scheme://host/path` the authority is the host. */
  lemma {:induction false} NetlocOfAbsoluteUrl(scheme: string, host: string, path: string)
    requires scheme != "" && IsAsciiLetter(scheme[0])
    requires forall k :: 0 <= k < |scheme| ==> IsSchemeChar(scheme[k])
    requires forall k :: 0 <= k < |host| ==> host[k] !in {'/', '?', '#'}
    requires path == [] || path[0] == '/'
    ensures Netloc(scheme + "://" + host + path) == Some(host)
  {
    UrlShape(scheme, host, path);
    DropSchemeOf(scheme, "//" + host + path);
    BeforeHostPath(host, path);
    var rest := "//" + host + path;
    assert rest[..2] == "//" && rest[2..] == host + path;
  }

  lemma UrlShape(scheme: string, host: string, path: string)
    ensures scheme + "://" + host + path == scheme + ":" + ("//" + host + path)
  {
  }

  /** `Before` keeps a text holding no stop character whole. */
  lemma BeforeNoStop(s: string, stops: set<char>)
    requires forall k :: 0 <= k < |s| ==> s[k] !in stops
    ensures Before(s, stops) == s
  {
    BeforeAppendFree(s, [], stops);
    assert s + [] == s;
  }

  lemma AuthorityPrefix(rest: string, tail: string)
    requires |rest| >= 2 && rest[..2] == "//"
    ensures |rest + tail| >= 2 && (rest + tail)[..2] == "//"
    ensures (rest + tail)[2..] == rest[2..] + tail
  {
    assert (rest + tail)[..2] == rest[..2];
  }

  lemma DropAuthorityAppendAfterHost(rest: string, tail: string)
    requires |rest| >= 2 && rest[..2] == "//"
    requires |Before(rest[2..], {'/', '?', '#'})| < |rest[2..]|
    ensures DropAuthority(rest + tail) == DropAuthority(rest) + tail
  {
    var stops := {'/', '?', '#'};
    var n := |Before(rest[2..], stops)|;
    AuthorityPrefix(rest, tail);
    BeforeAppendHit(rest[2..], tail, stops, n);
    assert (rest + tail)[2 + n..] == rest[2 + n..] + tail;
  }

  lemma DropAuthorityAppendHostOnly(rest: string, tail: string)
    requires |rest| >= 2 && rest[..2] == "//"
    requires |Before(rest[2..], {'/', '?', '#'})| == |rest[2..]|
    requires |tail| > 0 && tail[0] in {'/', '?', '#'}
    ensures DropAuthority(rest + tail) == tail
    ensures DropAuthority(rest) == []
  {
    var stops := {'/', '?', '#'};
    AuthorityPrefix(rest, tail);
    BeforeWhole(rest[2..], stops);
    BeforeAppendFree(rest[2..], tail, stops);
    assert Before(tail, stops) == [];
    assert (rest + tail)[|rest|..] == tail;
  }

  /** A query appended after the authority and path does not move the
      authority boundary. */
  lemma DropAuthorityQuery(rest: string, tail: string)
    requires |tail| > 0 && tail[0] == '?'
    ensures DropAuthority(rest + tail) == DropAuthority(rest) + tail
  {
    var rest' := rest + tail;
    if |rest| >= 2 && rest[..2] == "//" {
      if |Before(rest[2..], {'/', '?', '#'})| < |rest[2..]| {
        DropAuthorityAppendAfterHost(rest, tail);
      } else {
        DropAuthorityAppendHostOnly(rest, tail);
      }
    } else if |rest| >= 2 {
      assert rest'[..2] == rest[..2];
    } else if |rest| == 1 {
      assert rest'[1] == '?';
    } else {
      assert rest'[0] == '?';
    }
  }

  lemma BeforeQuery(local: string, tail: string)
    requires '?' !in local && '#' !in local
    requires |tail| > 0 && tail[0] == '?'
    ensures Before(local + tail, {'?', '#'}) == local
    ensures Before(local, {'?', '#'}) == local
  {
    BeforeAppendFree(local, tail, {'?', '#'});
    BeforeNoStop(local, {'?', '#'});
    assert Before(tail, {'?', '#'}) == [];
  }

  lemma {:induction false} UrlPathQuery(u: string, tail: string)
    requires '?' !in u && '#' !in u
    requires |tail| > 0 && tail[0] == '?'
    ensures UrlPath(u + tail) == UrlPath(u)
  {
    var rest := DropScheme(u);
    DropSchemeQuery(u, tail);
    SuffixAvoids(u, rest, '?');
    SuffixAvoids(u, rest, '#');
    DropAuthorityQuery(rest, tail);
    var local := DropAuthority(rest);
    SuffixAvoids(rest, local, '?');
    SuffixAvoids(rest, local, '#');
    BeforeQuery(local, tail);
  }

  lemma AuthorityAppendAfterHost(rest: string, tail: string)
    requires |rest| >= 2 && rest[..2] == "//"
    requires |Before(rest[2..], {'/', '?', '#'})| < |rest[2..]|
    ensures Authority(rest + tail) == Authority(rest)
  {
    AuthorityPrefix(rest, tail);
    BeforeAppendHit(rest[2..], tail, {'/', '?', '#'}, |Before(rest[2..], {'/', '?', '#'})|);
  }

  lemma AuthorityAppendHostOnly(rest: string, tail: string)
    requires |rest| >= 2 && rest[..2] == "//"
    requires |Before(rest[2..], {'/', '?', '#'})| == |rest[2..]|
    requires |tail| > 0 && tail[0] in {'/', '?', '#'}
    ensures Authority(rest + tail) == Authority(rest)
  {
    var stops := {'/', '?', '#'};
    AuthorityPrefix(rest, tail);
    BeforeWhole(rest[2..], stops);
    BeforeAppendFree(rest[2..], tail, stops);
    assert Before(tail, stops) == [];
  }

  /** A query appended to the text after the scheme does not move the
      authority's end. */
  lemma AuthorityQuery(rest: string, tail: string)
    requires |tail| > 0 && tail[0] == '?'
    ensures Authority(rest + tail) == Authority(rest)
  {
    var rest' := rest + tail;
    if |rest| >= 2 && rest[..2] == "//" {
      if |Before(rest[2..], {'/', '?', '#'})| < |rest[2..]| {
        AuthorityAppendAfterHost(rest, tail);
      } else {
        AuthorityAppendHostOnly(rest, tail);
      }
    } else if |rest| >= 2 {
      assert rest'[..2] == rest[..2];
    } else if |rest| == 1 {
      assert rest'[1] == '?';
    } else {
      assert rest'[0] == '?';
    }
  }

  /** A query appended to a URL leaves its authority alone. */
  lemma NetlocQuery(u: string, tail: string)
    requires |tail| > 0 && tail[0] == '?'
    ensures Netloc(u + tail) == Netloc(u)
  {
    DropSchemeQuery(u, tail);
    AuthorityQuery(DropScheme(u), tail);
  }

  /** The resolved extension of a URL depends on its authority and path
      alone (an empty URL has no authority and the empty path, whose
      extension is the type default). */
  lemma ExtensionDependsOnPathOnly(a: string, b: string, t: Option<string>)
    requires Netloc(a) == Netloc(b) && UrlPath(a) == UrlPath(b)
    ensures GetMediaExtension(Some(a), t) == GetMediaExtension(Some(b), t)
  {
    ExtensionViaPath(a, t);
    ExtensionViaPath(b, t);
  }

  /** Every URL, the empty one included, either makes `urlparse` raise or
      resolves through its path. */
  lemma ExtensionViaPath(url: string, t: Option<string>)
    ensures GetMediaExtension(Some(url), t) == if UrlParseFails(url) then None else Some(PathExtension(UrlPath(url), t))
  {
    if url == "" {
      UrlPathEmpty(url);
      assert '.' !in UrlPath(url);
    }
  }

  lemma UrlPathEmpty(url: string)
    requires url == []
    ensures UrlPath(url) == [] && Netloc(url) == None
  {
    var rest := DropScheme(url);
    assert |rest| == 0;
    assert |DropAuthority(rest)| == 0;
    assert |UrlPath(url)| == 0;
  }

  /** Appending a query string to a URL that has none leaves its resolved
      extension unchanged: only the path is inspected. */
  lemma {:induction false} QueryDoesNotAffectExtension(u: string, q: string, t: Option<string>)
    requires '?' !in u && '#' !in u
    ensures GetMediaExtension(Some(u + "?" + q), t) == GetMediaExtension(Some(u), t)
  {
    var tail := "?" + q;
    assert u + "?" + q == u + tail;
    TailDoesNotAffectExtension(u, tail, t);
  }

  lemma TailDoesNotAffectExtension(u: string, tail: string, t: Option<string>)
    requires '?' !in u && '#' !in u
    requires |tail| > 0 && tail[0] == '?'
    ensures GetMediaExtension(Some(u + tail), t) == GetMediaExtension(Some(u), t)
  {
    UrlPathQuery(u, tail);
    NetlocQuery(u, tail);
    ExtensionDependsOnPathOnly(u + tail, u, t);
  }

  // ---------------------------------------------------------- normalising

  /** The type table: image/picture to picture, video/movie to video,
      voice to voice, anything else (or no type) to text. */
  function MapType(raw: Option<string>): (r: MsgType)
    ensures r == Picture <==> raw == Some("image") || raw == Some("picture")
    ensures r == Video <==> raw == Some("video") || raw == Some("movie")
    ensures r == Voice <==> raw == Some("voice")
    ensures r == Text <==> raw !in {Some("image"), Some("picture"), Some("video"), Some("movie"), Some("voice")}
  {
    if raw == Some("image") || raw == Some("picture") then Picture
    else if raw == Some("video") || raw == Some("movie") then Video
    else if raw == Some("voice") then Voice
    else Text
  }

  /** `msg.get('file') or msg.get('thumbnail')`, kept only when truthy. */
  function MediaUrl(m: RawMessage): (r: Option<string>)
    ensures r.Some? ==> r.value != "" && (r == m.file || r == m.thumbnail)
    ensures TruthyStr(m.file) ==> r == m.file
    ensures r.None? <==> !TruthyStr(m.file) && !TruthyStr(m.thumbnail)
  {
    OrStr(m.file, m.thumbnail)
  }

  /** `normalize_message`: fails only when the record has no id; otherwise
      keeps the id, takes the timestamp from `published_at` and the content
      from `text`, defaults `is_favorite` to false, maps the type and keeps
      the raw type aside. */
  function NormalizeMessage(m: RawMessage): (r: Option<Normalized>)
    ensures r.Some? <==> m.id.Some?
    ensures r.Some? ==>
      && r.value.msg.id == m.id.value
      && r.value.msg.timestamp == m.publishedAt
      && r.value.msg.content == m.text
      && r.value.msg.isFavorite == (m.isFavorite == Some(true))
      && r.value.msg.mediaFile.None?
      && r.value.rawType == m.rawType
      && r.value.msg.msgType in {Text, Picture, Video, Voice}
      && (r.value.msg.msgType == Picture <==> m.rawType in {Some("image"), Some("picture")})
      && (r.value.msg.msgType == Video <==> m.rawType in {Some("video"), Some("movie")})
      && (r.value.msg.msgType == Voice <==> m.rawType == Some("voice"))
  {
    match m.id
    case None => None
    case Some(id) =>
      Some(Normalized(
        Message(id, m.publishedAt, MapType(m.rawType), m.isFavorite.GetOr(false), m.text, None),
        m.rawType))
  }

  // ------------------------------------------------ the source's own tests

  lemma NotInConcat(a: string, b: string, c: char)
    requires c !in a && c !in b
    ensures c !in a + b
  {
  }

  /** `scheme://host/stem.e` resolves to `e` lower-cased when that is a
      known extension, whatever the message type (the case
      `http://example.com/file.jpg`). */
  lemma {:induction false} ExtensionOfAbsoluteUrl(scheme: string, host: string, stem: string, e: string, t: Option<string>)
    requires scheme != "" && IsAsciiLetter(scheme[0])
    requires forall k :: 0 <= k < |scheme| ==> IsSchemeChar(scheme[k])
    requires forall k :: 0 <= k < |host| ==> host[k] !in {'/', '?', '#'}
    requires |stem| > 0 && stem[0] == '/'
    requires '?' !in stem && '#' !in stem && '?' !in e && '#' !in e
    requires '.' !in e && AsciiLower(e) in KnownExtensions
    requires !NetlocRejected(host)
    ensures GetMediaExtension(Some(scheme + "://" + host + stem + "." + e), t) == Some(AsciiLower(e))
  {
    var path := stem + "." + e;
    var url := scheme + "://" + host + stem + "." + e;
    assert url == scheme + "://" + host + path;
    NotInConcat(stem, ".", '?');
    NotInConcat(stem + ".", e, '?');
    NotInConcat(stem, ".", '#');
    NotInConcat(stem + ".", e, '#');
    assert path[0] == stem[0];
    UrlPathOfAbsoluteUrl(scheme, host, path);
    NetlocOfAbsoluteUrl(scheme, host, path);
    ExtensionFromPath(url, stem, e, t);
  }

  /** The same with a query string appended (the case
      `http://example.com/file.mp4?query=1`). */
  lemma {:induction false} ExtensionOfAbsoluteUrlWithQuery(scheme: string, host: string, stem: string, e: string, q: string, t: Option<string>)
    requires scheme != "" && IsAsciiLetter(scheme[0])
    requires forall k :: 0 <= k < |scheme| ==> IsSchemeChar(scheme[k])
    requires forall k :: 0 <= k < |host| ==> host[k] !in {'/', '?', '#'}
    requires |stem| > 0 && stem[0] == '/'
    requires '?' !in stem && '#' !in stem && '?' !in e && '#' !in e
    requires '.' !in e && AsciiLower(e) in KnownExtensions
    requires !NetlocRejected(host)
    ensures GetMediaExtension(Some(scheme + "://" + host + stem + "." + e + "?" + q), t) == Some(AsciiLower(e))
  {
    var url := scheme + "://" + host + stem + "." + e;
    assert '?' !in url && '#' !in url by {
      assert '?' !in scheme && '#' !in scheme by {
        assert forall k :: 0 <= k < |scheme| ==> IsSchemeChar(scheme[k]);
      }
      assert '?' !in host && '#' !in host by {
        assert forall k :: 0 <= k < |host| ==> host[k] !in {'/', '?', '#'};
      }
      NotInConcat(scheme, "://", '?');
      NotInConcat(scheme + "://", host, '?');
      NotInConcat(scheme + "://" + host, stem, '?');
      NotInConcat(scheme + "://" + host + stem, ".", '?');
      NotInConcat(scheme + "://" + host + stem + ".", e, '?');
      NotInConcat(scheme, "://", '#');
      NotInConcat(scheme + "://", host, '#');
      NotInConcat(scheme + "://" + host, stem, '#');
      NotInConcat(scheme + "://" + host + stem, ".", '#');
      NotInConcat(scheme + "://" + host + stem + ".", e, '#');
    }
    QueryDoesNotAffectExtension(url, q, t);
    ExtensionOfAbsoluteUrl(scheme, host, stem, e, t);
  }

  /** An authority holding one square bracket but not the other makes
      `urlparse` raise, so no extension is resolved (the case
      `http://[x/a.jpg`). */
  lemma {:induction false} UnbalancedHostRaises(scheme: string, host: string, path: string, t: Option<string>)
    requires scheme != "" && IsAsciiLetter(scheme[0])
    requires forall k :: 0 <= k < |scheme| ==> IsSchemeChar(scheme[k])
    requires forall k :: 0 <= k < |host| ==> host[k] !in {'/', '?', '#'}
    requires path == [] || path[0] == '/'
    requires '?' !in path && '#' !in path
    requires ('[' in host) != (']' in host)
    ensures GetMediaExtension(Some(scheme + "://" + host + path), t) == None
  {
    NetlocOfAbsoluteUrl(scheme, host, path);
  }

  /** A host holding a character whose NFKC form is or holds `/ ? # @ :`
      makes `urlparse` raise, so no extension is resolved. */
  lemma {:induction false} NfkcHostRaises(scheme: string, host: string, path: string, t: Option<string>, k: nat)
    requires scheme != "" && IsAsciiLetter(scheme[0])
    requires forall k :: 0 <= k < |scheme| ==> IsSchemeChar(scheme[k])
    requires forall k :: 0 <= k < |host| ==> host[k] !in {'/', '?', '#'}
    requires path == [] || path[0] == '/'
    requires '?' !in path && '#' !in path
    requires k < |host| && host[k] in NfkcSeparators
    ensures GetMediaExtension(Some(scheme + "://" + host + path), t) == None
  {
    NetlocOfAbsoluteUrl(scheme, host, path);
  }

  /** `http://a\U{FF0F}b/x.jpg`, with a fullwidth solidus in the host, makes
      `urlparse` raise although its path ends in `.jpg`. */
  lemma FullwidthSolidusRaises(t: Option<string>)
    ensures GetMediaExtension(Some("http://a\U{FF0F}b/x.jpg"), t) == None
  {
    var host := "a\U{FF0F}b";
    assert "http://a\U{FF0F}b/x.jpg" == "http" + "://" + host + "/x.jpg";
    NfkcHostRaises("http", host, "/x.jpg", t, 1);
  }

  lemma NormalizeExamples()
    ensures var r := NormalizeMessage(RawMessage(Some(123), None, Some("image"),
              Some("2023-01-01T00:00:00Z"), Some("Hello"), None, Some("http://img.com/a.jpg"), None));
      && r.Some? && r.value.msg.id == 123 && r.value.msg.msgType == Picture
      && r.value.msg.content == Some("Hello") && !r.value.msg.isFavorite
      && r.value.rawType == Some("image")
    ensures NormalizeMessage(RawMessage(Some(1), None, Some("movie"), None, None, None, None, None)).value.msg.msgType == Video
    ensures NormalizeMessage(RawMessage(Some(1), None, Some("voice"), None, None, None, None, None)).value.msg.msgType == Voice
    ensures NormalizeMessage(RawMessage(Some(1), None, Some("text"), None, None, None, None, None)).value.msg.msgType == Text
  {
  }
}
